=== FILE: README.md ===
# SEO blog backend: access control, credentials and content rules in Dafny

This project models the core of an Express/Mongoose blog backend: users,
blog posts, categories and tags, the guard chains that protect each
endpoint, and the password and reset-link life cycle. Each collection is a
sequence of immutable records kept in insertion order. A `findOne` is the
first match, and a unique index is a predicate every successful save keeps.
Every handler is a pure function from its inputs and the stored
collections to a reply and the collections afterwards. The external
primitives are uninterpreted function values of `Platform.Prims`: HMAC-SHA1,
JSON Web Token signing and verification, `slugify` and `smartTrim`. Fresh
values are parameters: ids, salts, short usernames and timestamps.

Modules follow the source files:

- `UserModel`, `BlogModel` and `TermModel` model the schemas. Categories and tags are one model told apart by `Kind`, because their files differ only in names and messages.
- `AuthController`, `BlogController`, `TermController` and `UserController` model the controllers.
- `StripHtml` models the tag-stripping regex.
- `Validators` models the category and tag validators and `runValidation`.
- `Routes` models the routers: each route's chain of middleware stages run as a fold.
- `Strings`, `Collections`, `Platform` and `Wrappers` are shared helpers.

Where the source's quirks decide an outcome, the model keeps them:

- `signup` checks for a duplicate with the email as given, not lower-cased.
- The failure callback of `resetPassword` does not end the handler.
- `canUpdateDeleteBlog` dereferences a missing blog and hangs.
- `adminMiddleware` has no guard for a missing token id: like `authMiddleware` with an id that does not cast, its `findById` throws inside the async stage, and the request is never answered.
- `googleLogin` sends nothing for an unverified email.
- `publicProfile` answers 400 for an unknown username: the `user._id` dereference throws inside the second `try`.
- A re-used reset link that still verifies gets 400, not 401. It matches no user, so `_.extend` builds a plain object from the missing user, and its `save` call throws inside the `try`, whose catch answers 400.
- `models/blogModel.js:18-23` declares `body` with the Mixed type `{}`. Mongoose ignores `minLength`/`maxLength` on that type. The only body-length rule is therefore `create`'s own check for at least 200 characters; no 2000000 upper bound is enforced.

## Model

| member | source | states |
|---|---|---|
| `UserModel.NormalizeKey` | models/userModel.js:6-27 | The trim and lowercase setters of username and email: the stored key is never longer than the input and holds no upper-case letter. |
| `UserModel.EncryptPassword` | models/userModel.js:85-92 | An empty or missing password, and a hash that throws (no salt), give `''`. Any non-empty digest is the HMAC of that password under that salt. |
| `UserModel.Authenticate` | models/userModel.js:81-83 | True exactly when the candidate digests to the stored digest. A user whose digest is set never accepts an empty or missing password. |
| `UserModel.SetPassword` | models/userModel.js:64-76 | The password setter installs a fresh salt and the digest under it and changes nothing else. The same password authenticates afterwards (round trip). |
| `UserModel.NewUser` | models/userModel.js:4-53 | A new user has role 0, an empty reset link, normalised username and email, a trimmed name, and authenticates with its password. |
| `UserModel.InsertUser` | models/userModel.js:4-35 | A new document is saved exactly when the required/maxLength validators pass and neither the id, the email nor the username is taken. It is appended, and the unique indexes still hold. |
| `UserModel.ReplaceUser` | models/userModel.js:4-35 | Saving a loaded user succeeds exactly when it is valid, clash-free and still stored. Only the records with its id change, and the unique indexes still hold. |
| `UserModel.SetResetLink` | controllers/authController.js:202-206 | `updateOne({ resetPasswordLink })` changes the link of the user with that id and nothing else, and keeps the unique indexes. |
| `UserModel.SavedUserRejectsEmptyPassword` | models/userModel.js:32-35 | A user that passed the `required` digest validator never authenticates with `''` or a missing password. |
| `BlogModel.InsertBlog` | models/blogModel.js:4-55 | A new post is saved exactly when its title is 3 to 160 characters, its excerpt at most 1000, and neither its slug nor its id is taken. It is appended, and the unique indexes still hold. |
| `BlogModel.ReplaceBlog` | models/blogModel.js:4-55 | Saving a loaded post succeeds exactly when it is valid, its slug is held by no other post and its id is still stored. Only the records with its id change, the size is kept, and the unique indexes still hold. |
| `BlogModel.TitleBoundary` | models/blogModel.js:6-12 | The title bounds are inclusive: 3 and 160 characters pass, and 2 and 161 fail. |
| `TermModel.InsertTerm` | models/categoryModel.js:3-23 | A new category or tag is saved exactly when its name is non-empty and at most 50 characters and neither its id nor its slug is taken. It is appended, and the unique indexes still hold. |
| `TermModel.NameBoundary` | models/tagModel.js:5-10 | An empty name fails `required`; 50 characters pass and 51 fail `maxLength`. |
| `AuthController.PreSignup` | controllers/authController.js:14-49 | A lower-cased email already stored gets 400 'Email is taken' and no mail. Otherwise the activation token for the form is mailed, and 201 is sent once the mail is accepted. No user is ever written. |
| `AuthController.Signup` | controllers/authController.js:51-77 | An email stored exactly as given gets 400 'User already exists'. For a free email, an accepted save of the new account gets 201 and stores exactly that save's result, and a rejected one gets no reply and changes nothing. The store changes exactly on 201: one user is appended, with role 0, no reset link and a working password. |
| `AuthController.Signin` | controllers/authController.js:79-104 | An unknown email gets 400 'User with that email does not exist', and a stored email with a wrong password 400 'Authentication failed', neither with a token. Success issues the session token of that user's id with only id, username, name, email and role. Under unique emails, success holds exactly when the password authenticates. |
| `AuthController.SignupThenSignin` | controllers/authController.js:51-104 | A user who has just signed up with a normalised email signs in with the same password. |
| `AuthController.AuthMiddleware` | controllers/authController.js:119-135 | A missing or empty token id gets 'User id is undefined!'. A present id that does not cast to an ObjectId makes `findById` throw: no reply. A castable id no user has gets 'The user could not be found!'. Otherwise exactly the user with that id becomes the profile. |
| `AuthController.AdminMiddleware` | controllers/authController.js:137-152 | A missing id, or one that does not cast to an ObjectId, makes `findById` throw: no reply. It continues only with a stored user of role 1 with the token's id. A castable unknown id gets 'User not found!' and any other role 'not an administrator'. Under unique ids it continues exactly when the role of the user holding that (castable) id is 1. |
| `AuthController.CanUpdateDeleteBlog` | controllers/authController.js:154-174 | It continues exactly when the blog at the lower-cased slug was posted by the profile's user; a role gives no bypass. A failed lookup or a missing blog hangs with no reply. |
| `AuthController.ForgotPassword` | controllers/authController.js:176-213 | An unknown email gets 400 and changes nothing. Otherwise that user's own reset token is stored on that user alone and mailed, and 201 follows once the mail is accepted. Stored links stay with their holders. |
| `AuthController.IssueResetLink` | controllers/authController.js:185-212 | Issuing stores and mails the holder's own reset token and keeps the unique indexes. |
| `AuthController.IssuingKeepsLinksWithHolders` | controllers/authController.js:185-203 | Storing a user's own reset token keeps every stored link equal to its holder's token. |
| `AuthController.ResetPassword` | controllers/authController.js:215-257 | An empty link does nothing. A link that fails verification gets 401, yet its holder is still reset. A link that verifies but that no user holds gets 400 and changes nothing. Any change is to the one holder: new credentials that authenticate and a cleared link. |
| `AuthController.OneHolderPerLink` | controllers/authController.js:185-203 | With links issued to their holders, injective signing and unique ids, a non-empty link is held by at most one user. |
| `AuthController.ResetLinkIsSingleUse` | controllers/authController.js:229-246 | After a reset that changed the store, the same link matches nobody: presenting it again changes nothing and never gets the success reply. |
| `AuthController.ForgotStoresOwnToken` | controllers/authController.js:185-203 | Forgot-password for a stored email stores that user's own token on that user alone and mails it. |
| `AuthController.ResetByHolder` | controllers/authController.js:215-256 | A verified link held by exactly one valid user, with a password that digests, resets that user: 201, a cleared link, and the new password authenticates. |
| `AuthController.ForgotThenReset` | controllers/authController.js:176-256 | Forgot-password followed by reset with the mailed link succeeds, and the new password authenticates. |
| `AuthController.GoogleLogin` | controllers/authController.js:274-328 | A failed verification gets 500 and an unverified email no reply, both changing nothing. A verified stored email gets 200 with the session token and summary of the first user holding it, and no user is created. A verified free email creates a user exactly when the save of the new account is accepted: one user is appended, with the generated username and profile URL and role 0, and is signed in. A rejected save answers 400 and changes nothing. |
| `StripHtml.Strip` | controllers/blogController.js:14-16 | Stripping never lengthens the text and only keeps characters of the input. |
| `StripHtml.StripLeavesNoTagStart` | controllers/blogController.js:14-16 | After stripping, every '<' is followed directly by '>' or by no '>' at all. |
| `StripHtml.StripFixesTagFreeText` | controllers/blogController.js:14-16 | Text in which no '<' starts a tag is returned unchanged. |
| `StripHtml.StripHtmlProperties` | controllers/blogController.js:14-16 | The result holds no '<', one or more non-'>' characters and '>' in a row; it is no longer than the input; stripping twice equals stripping once. |
| `StripHtml.StripKeepsPlainText` | controllers/blogController.js:14-16 | Text without '<' is returned unchanged. |
| `Strings.JoinSplit` | controllers/blogController.js:65-66 | Joining the comma-split of a field with commas gives the field back. |
| `BlogController.MetaDescription` | controllers/blogController.js:61 | `mdesc` is at most 160 characters, no longer than the body, and holds no tag. Without a '<' it is the body's first 160 characters. |
| `Platform.Slug` | controllers/blogController.js:59 | A post slug (and, at controllers/categoryController.js:9 and controllers/tagController.js:9, a term slug) is `slugify` lower-cased: as long as the slugified text and free of upper-case letters. |
| `BlogController.MetaTitle` | controllers/blogController.js:60 | `mtitle` is the title as submitted followed by a space, a vertical bar, a space and the application name. |
| `BlogController.IdList` | controllers/blogController.js:65-66 | The stored list is non-empty, its entries hold no comma, and joined with commas they give the submitted field. |
| `BlogController.CreateError` | controllers/blogController.js:31-53 | The checks run in order, title, body of at least 200, categories, tags, and the first failure's message is reported. No error exactly when all four pass. |
| `BlogController.NewBlog` | controllers/blogController.js:55-62 | The saved post has the fresh id, the author from the token, the trimmed title and the derived slug, mtitle, excerpt and mdesc, and no references yet. |
| `BlogController.Create` | controllers/blogController.js:18-112 | A form error or a photo over 1000000 bytes gets 400 and stores nothing. The reply is 200 exactly when the form and photo pass, the save of the new post is accepted and both reference lists cast; it then carries the post as first saved, and the post is stored with the split categories and tags. Otherwise at most one post is appended, with the derived fields. The unique indexes still hold. |
| `BlogController.PushedKeepsUnique` | controllers/blogController.js:88-108 | Pushing references onto the new post keeps the unique id and slug indexes. |
| `BlogController.CreatedPostShape` | controllers/blogController.js:55-66 | A created post has a lower-case slug, a tag-free mdesc of at most 160 characters, and lists that join back to the submitted fields. |
| `BlogController.Read` | controllers/blogController.js:184-203 | The answer is null exactly when no post has the lower-cased slug. Otherwise it is that post without its photo. |
| `BlogController.CreateThenRead` | controllers/blogController.js:184-203 | Reading a just-created post's slug returns that post without its photo. |
| `BlogController.Remove` | controllers/blogController.js:205-220 | The reply is always 201 'Blog was deleted successfully!'. An unknown slug changes nothing; posts with other slugs are kept, and nothing is added. |
| `BlogController.DeletionKeepsUnique` | controllers/blogController.js:209-210 | Deleting one post keeps the unique indexes. |
| `BlogController.RemoveDeletesThePost` | controllers/blogController.js:205-220 | Under the unique slug index no post with the slug is left, and the index still holds. |
| `BlogController.BlogPhoto` | controllers/blogController.js:292-319 | An unknown slug gets 400 'There is no blog by this name!'; otherwise the stored photo of the post with that slug. |
| `BlogController.Edited` | controllers/blogController.js:248-276 | The merge keeps id, slug and creation time. A non-empty body recomputes excerpt and mdesc. Non-empty category and tag fields replace the stored lists, and empty ones keep them. An accepted photo replaces the image. |
| `BlogController.Update` | controllers/blogController.js:222-290 | An unknown slug gets 400 'No blog by that name was found!', and a large photo 400. A category, tag or author id that does not cast to an ObjectId fails the save with 400. None of these changes anything. The reply is 200 exactly when the slug is found, the photo passes, the fields cast and the save of the merged post is accepted. A success writes the merged post in its own place, keeps the size and the unique indexes, and replies without the photo. |
| `BlogController.UpdateKeepsSlugs` | controllers/blogController.js:248-251 | Whatever is submitted, every post keeps its id and slug, and posts with other slugs are untouched. |
| `BlogController.UpdateReplacesReferences` | controllers/blogController.js:253-266 | Submitted category and tag lists replace the stored ones (they join back to the fields), and a new body gives a tag-free mdesc. |
| `BlogController.FieldOr` | controllers/blogController.js:133-134 | A missing `limit`/`skip`, or the JSON number 0, takes its default; any other integer is used. |
| `BlogController.LimitCount` | controllers/blogController.js:149 | The store's `limit` counts a negative limit by its absolute value. |
| `BlogController.ListAllBlogsCategoriesTags` | controllers/blogController.js:132-182 | A negative skip is refused. Otherwise the page is the newest-first ordering of the posts from position `skip` on: `limit` posts (default 10), or as many as remain, or none when `skip` is past the end. It is newest-first and draws on the stored posts; `size` is its length, and every category and tag is returned. |
| `Collections.Window` | controllers/blogController.js:148-149 | `skip(n).limit(m)` over an ordering: exactly the elements from position `n` on, `m` of them or as many as remain, and none when `n` is past the end. |
| `Collections.AdjacentWindows` | controllers/blogController.js:148-149 | The window of `n` after `skip` followed by the window of `m` after that is the window of `n + m` after `skip`: paging neither skips nor repeats elements. |
| `Collections.SortedWindow` | controllers/blogController.js:147-149 | `sort({created:-1}).skip(n).limit(m)`: exactly the newest-first ordering from position `n` on, `m` elements or as many as remain; it is in descending key order and a sub-multiset of the posts. Equal keys keep storage order. |
| `Collections.FrontWindowHoldsGreatest` | controllers/blogController.js:147-149 | A window from the front holds the greatest keys: nothing left off it has a greater key than its last element. |
| `BlogController.FirstPageHoldsNewest` | controllers/blogController.js:143-150 | The first page holds the newest posts: no post left off it is newer than its last post. |
| `BlogController.NextPageContinues` | controllers/blogController.js:133-149 | With `limit` n > 0, the page after skipping n, appended to the first page, is the first page of `limit` 2n, for the one ordering that puts posts with equal `created` in storage order. |
| `BlogController.NextPageIsOlder` | controllers/blogController.js:147-149 | No post on the page after skipping n is newer than any post on the first page of n. |
| `BlogController.PagesDoNotOverlap` | controllers/blogController.js:148-149 | The first page and the page after it together draw on the stored posts: no post is on both unless it is stored twice, for the one ordering that puts posts with equal `created` in storage order. |
| `BlogController.DefaultPageIsTen` | controllers/blogController.js:133-134 | With no paging fields the page holds min(10, number of posts) posts, and `size` says so. |
| `BlogController.ListRelated` | controllers/blogController.js:321-337 | There is no reply without a `blog`. Otherwise at most `limit` (default 3) posts, each another post sharing a category; when fewer than the limit come back, every such post is there. |
| `BlogController.RelatedExcludesItself` | controllers/blogController.js:327 | Related posts never include the post asked about. |
| `BlogController.ListByUser` | controllers/blogController.js:363-391 | An unknown username gets no reply. Otherwise exactly the posts of that user. |
| `Validators.NameErrors` | validators/categoryValidators.js:4-9 | A missing or empty name gives 'Name is required', and over 50 characters the kind's length message. There are no errors exactly for a non-empty name of at most 50. |
| `Validators.LengthBoundary` | validators/tagValidators.js:8-9 | 50 characters pass; 51 fail with the length message. |
| `Validators.RunValidation` | validators/indexValidators.js:4-11 | The chain continues exactly when there are no errors; otherwise it is refused with 422 and the first message, never hanging. |
| `TermController.Create` | controllers/categoryController.js:7-23 | Without a name there is no reply. A rejected save gets 400 and stores nothing. Success gets 201 with the trimmed name and derived slug, appended under a slug no other term has, keeping the unique indexes. |
| `TermController.ValidatedNameIsStored` | controllers/tagController.js:7-23 | A validated name with a free slug and id is stored exactly when it is not all spaces. |
| `TermController.Read` | controllers/categoryController.js:38-66 | Always 201. Nothing is found exactly when no term has the lower-cased slug. Otherwise that term with exactly the posts referencing it, by kind. |
| `TermController.List` | controllers/categoryController.js:25-36 | `find({})` answers 201 with every stored term, in stored order. |
| `TermController.Remove` | controllers/categoryController.js:68-90 | An unknown lower-cased slug gets 400 with the kind's not-found message and changes nothing. Otherwise the first such term is deleted and named in the 201 message; other terms are kept. |
| `TermController.TermDeletionKeepsUnique` | controllers/tagController.js:80 | Deleting one term keeps the unique indexes. |
| `TermController.RemoveDeletesTheTerm` | controllers/tagController.js:68-90 | Under the unique slug index no term with the slug is left, and the index still holds. |
| `TermController.CreateThenListAndRead` | controllers/categoryController.js:25-66 | A just-created term is listed, and reading its slug finds it. |
| `UserController.Read` | controllers/userController.js:10-13 | The private profile is the caller's record with the digest removed. |
| `UserController.AuthorPosts` | controllers/userController.js:33-39 | At most 10 posts, all by that user; when fewer come back, every post by the user is there. |
| `UserController.PublicProfileAsWritten` | controllers/userController.js:16-54 | An unknown username gets 400. Otherwise the user, with only photo and digest removed, and the user's posts. |
| `UserController.PublicProfile` | controllers/userController.js:16-54 | As above, but salt and reset link are removed too. |
| `UserController.PublicProfileLeaksResetLink` | controllers/userController.js:48-53 | After a password reset is requested for an author, the as-written public profile shows the pending reset link, and presenting it resets the author's password to one of the visitor's choosing. |
| `UserController.UpdateError` | controllers/userController.js:72-82 | A username over 12 characters is reported first, then a non-empty password under 6; no error exactly when neither applies. |
| `UserController.Edited` | controllers/userController.js:84-99 | The merge keeps id, role, email and reset link, normalises a submitted username, and a submitted password gets a fresh salt and authenticates. An accepted photo replaces the image. |
| `UserController.UpdatedView` | controllers/userController.js:109-112 | The update reply has no digest, salt or photo. |
| `UserController.Update` | controllers/userController.js:57-114 | A form error or a photo over 1000000 bytes gets 400 and changes nothing. The reply is 200 exactly when the form and photo pass and the save of the merged profile is accepted. A success replaces only the caller's record with the merged one, keeps the unique indexes, and replies without digest, salt or photo. |
| `UserController.UpdateKeepsRoleAndEmail` | controllers/userController.js:68-89 | Whatever is submitted, no user's role or email changes through an update. |
| `UserController.UpdatedPasswordSignsIn` | controllers/userController.js:84-85 | A password changed by a successful update authenticates, under the fresh salt. |
| `UserController.UserPhoto` | controllers/userController.js:116-132 | A photo is sent exactly when the first user with the username has one; otherwise there is no reply. |
| `Routes.Signed` | controllers/authController.js:113-117 | The payload is present exactly when a bearer token was sent and verifies under the session secret. |
| `Routes.Step` | controllers/authController.js:113-174 | Validators only collect errors. `runValidation` passes exactly without errors, otherwise 422 with the first. The token check passes exactly with a verified token, otherwise 401. The two user guards attach a stored user with the token's id, of role 1 for the admin guard; an id that does not cast leaves the request unanswered. The ownership guard passes only for the author of the slug's post. |
| `Routes.RunAppend` | routes/blogRoutes.js:28-45 | Chains compose: running two chains in a row is running their concatenation. |
| `Routes.HandlerIffEveryStagePasses` | routes/blogRoutes.js:28-45 | The handler runs exactly when every stage, run on what the stages before it left, passes. |
| `Routes.StopIsFirstRefusal` | routes/blogRoutes.js:28-45 | A stopped chain ends with the reply of the first stage that refused, or with none when that stage threw. |
| `Routes.ChainPublic` | routes/blogRoutes.js:28-45 | Exactly the public endpoints of the auth, user, category, tag and blog routers run their handler with no stage in front. |
| `Routes.ChainAdminGuard` | routes/categoryRoutes.js:13-16 | `adminMiddleware` guards exactly the administrator blog, category and tag endpoints, and there it is the last stage, right after `requireSignin`. |
| `Routes.ChainUserGuards` | routes/blogRoutes.js:42-45 | `canUpdateDeleteBlog` guards exactly the user blog update and delete; `authMiddleware` guards exactly the profile read and update and the user blog endpoints; every user guard directly follows `requireSignin`. |
| `Routes.SigninThenAdmin` | routes/categoryRoutes.js:16 | The signin-then-admin chain passes exactly for a verified token naming an administrator, who becomes the profile. |
| `Routes.SigninThenProfile` | routes/userRoutes.js:9 | The signin-then-authMiddleware chain passes exactly for a verified token naming a stored user, who becomes the profile. |
| `Routes.AdminRoutesNeedAdmin` | routes/blogRoutes.js:28-30 | Admin blog create/delete/update and category or tag create/delete reach the handler exactly when the name validates (create) and a verified token names a stored role-1 user, who becomes the profile. |
| `Routes.ValidationPrecedesSignin` | routes/tagRoutes.js:13 | An invalid category or tag name gets 422 with its first message whatever token is sent. |
| `Routes.OwnerRoutesNeedAuthor` | routes/blogRoutes.js:44-45 | User blog update/delete reach the handler exactly when the token resolves to a stored user who posted the slug's blog. |
| `Routes.AdminIsNotAuthor` | routes/blogRoutes.js:44-45 | A stored administrator who did not post the blog is refused 'not authorised' on those routes: there is no admin bypass. |
| `Routes.UserCreateNeedsSigninOnly` | routes/blogRoutes.js:42 | User blog create needs only a verified token of a stored user: no role, no ownership. |
| `Routes.ProfileRoutesActOnCaller` | routes/userRoutes.js:9-11 | Profile read and update reach the handler exactly with a verified token of a stored user, and the profile handed over is that user. |
| `Routes.AuthFormsValidateFirst` | routes/authRoutes.js:25-30 | Pre-signup, signin, forgot- and reset-password reach the handler exactly when their form has no errors; otherwise 422 with the first. |
| `Routes.UnguardedRoutesReachHandler` | routes/blogRoutes.js:34-43 | The public blog, category, tag, user and auth routes reach their handler for every request: besides these blog routes, routes/authRoutes.js:26, 28 and 33, routes/userRoutes.js:10 and 12, routes/categoryRoutes.js:14-15 and routes/tagRoutes.js:14-15. |

## Findings

| source | as written | input that shows it | evidently intended | confidence | as-written member | corrected member |
|---|---|---|---|---|---|---|
| controllers/userController.js:48-53 | `publicProfile` removes only `photo` and `hashed_password` before sending the user document, so `salt` and `resetPasswordLink` go to any visitor | An author with username `alice` and email `alice@x.io`. Anyone calls forgot-password for `alice@x.io`, then `GET /user/alice` returns the stored reset token, then reset-password with that token and a chosen password. | The public profile hides the salt and the reset link as well, as `update` hides the salt (userController.js:109-111) | not executed | `UserController.PublicProfileAsWritten`, `UserController.PublicProfileLeaksResetLink` | `UserController.PublicProfile` |

## Left out

- Token signing, verification and expiry (JSON Web Tokens), HMAC-SHA1, the `Math.random` salt and `shortid` are uninterpreted values in `Prims` or fresh parameters. Expiry is whatever `verify` returns.
- `slugify`, `smartTrim`, `errorHandler`: opaque. A store error is `StoreError(status)` without its text. The auth-form validators (`validators/authValidators.js`) are not part of this model; their messages arrive as `Request.formErrors`.
- express-jwt's 401 texts are its own; the model uses the texts of its two usual errors. The `Authorization: Bearer` header is the only token source, as configured.
- Mongoose detail: `populate`/`select` projections (replies carry whole records minus the fields the handler removes), timestamps other than `created`, and index mechanics. Query values are compared as passed, without schema casting, except that the two user guards' `findById` throws on an id that does not cast.
- lodash `_.merge`/`_.extend`: a flat override of the submitted fields. In the profile update, fields not modelled as submittable (`hashed_password`, `salt`, `resetPasswordLink`, `_id`, `photo`) are not part of `ProfileFields`.
- `UserController.Edited`: it keeps the id, the digest, the salt and the reset link only because `ProfileFields` cannot carry `_id`, `hashed_password`, `salt` or `resetPasswordLink`. The source's `_.extend(user, fields)` would copy any of them that a client sends.
- `BlogController.ListAllBlogsCategoriesTags`: posts with equal `created` values are ordered by storage order here (`Collections.SortDesc` is a stable sort), while `sort({ created: -1 })` leaves their order unspecified and may order them differently in two separate queries. `BlogController.NextPageContinues` and `BlogController.PagesDoNotOverlap` hold for this fixed order only: with tied timestamps the store may repeat or skip a post across two page requests. `BlogController.FirstPageHoldsNewest` and `BlogController.NextPageIsOlder` hold under any tie order.
- `BlogController.FieldOr`: a paging field is the parsed integer of a JSON number. A truthy field that parses to 0 (the string `"0"`, or `0.5`) reaches `.limit(0)`, which returns every post, and a non-numeric string reaches the store as `NaN`. Neither is modelled: here only the number 0 or an absent field takes the default.
- `BlogController.Edited`: an empty category or tag field keeps the stored list, where the source's merge would assign the empty string and its cast would then decide the save.
- `BlogController.Create`: the replies of the two reference pushes when their write is refused are `StoreError(400)`. The casting rule is `Platform.CastsToObjectId` (12 characters, or 24 hex digits). Unknown but castable ids are stored as given.
- `list` (`controllers/blogController.js:114-130`): it returns the whole collection with projections only, so its result is the stored sequence and nothing is stated about it.
- `listSearch` (`controllers/blogController.js:339-361`): case-insensitive regular-expression search; regex semantics are out of scope.
- `signout` (`controllers/authController.js:106-111`): it only clears a cookie and sends a fixed message.
- Uploads: formidable parsing, file reads and photo bytes. A photo is its size and content type, and a parse failure is not modelled.
- The mail service (SendGrid) and Google's `verifyIdToken`: the outcome of a mail send is the `mailAccepted` parameter, and the verified payload (or its absence) is a parameter.
- Store faults: a `findOne`/`find` that throws is not modelled, except `canUpdateDeleteBlog`'s failed lookup (`lookupFails`).
- `controllers/formController.js`, `routes/formRoutes.js` and `server.js` are not part of this model (mail handlers and bootstrap).
- Strings: trimming and lower-casing cover ASCII only; JavaScript's Unicode whitespace and case mapping are not modelled.
- Lengths: a Dafny string is a sequence of Unicode scalar values, so every length check counts characters. JavaScript's `.length` and `substring` count UTF-16 code units, and the validators' `isLength` counts code points. The two differ on characters outside the Basic Multilingual Plane. This affects the body minimum of 200, the 160-character `mdesc`, the username maximum of 12, the password minimum of 6 and the 50-character name limit. For example, three emoji make a 6-unit password that the source accepts and the model refuses.
- `UserController.UserPhoto`: the `try` around `findOne` that would answer 400 on a store fault is not modelled.
- Concurrency: every request runs alone. The race between two resets of the same link is not modelled.

=== FILE: auth_controller.dfy ===
/** controllers/authController.js: account creation, sign-in, the guards
    that resolve the acting user, and the password-reset link life cycle. */
module AuthController {
  import opened Wrappers
  import opened Strings
  import opened Collections
  import opened Platform
  import opened UserModel
  import opened BlogModel

  /** The part of a user that sign-in and Google login expose. */
  datatype UserSummary = UserSummary(id: Id, username: string, name: string, email: string, role: int)

  function Summary(u: User): UserSummary {
    UserSummary(u.id, u.username, u.name, u.email, u.role)
  }

  /** A session token (also set as the `token` cookie) and its user. */
  datatype Session = Session(token: string, user: UserSummary)

  /** A handler's reply, the user collection afterwards, and the email it
      hands to the mail service, if any. */
  datatype AuthStep<+T> = AuthStep(reply: Reply<T>, users: seq<User>, mail: Option<Mail>)

  /** The verified Google ID-token payload fields the handler reads. */
  datatype GoogleProfile = GoogleProfile(emailVerified: bool, name: string, email: string, jti: Option<string>)

  const EmailTaken := "Email is taken"
  const UserExists := "User already exists"
  const SignedUp := "You have signed up successfully! Please sign in."
  const NoSuchUser := "User with that email does not exist! Please sign up first."
  const AuthFailed := "Authentication failed! Please try again."
  const UserIdUndefined := "User id is undefined!"
  const UserNotResolved := "The user could not be found!"
  const AdminNotFound := "User not found!"
  const NotAdmin := "The user is not an administrator. Access denied!"
  const NotAuthorised := "You are not authorised to perform this action!"
  const NoUserWithEmail := "User with this email does not exist!"
  const ExpiredLink := "Expired link! Please try again."
  const PasswordReset := "Success! Now you can log in with your new password."
  const RegistrationFailed := "An error occurred! Registration failed."

  function ActivationSent(email: string): string {
    "An email has been sent to " + email + ". Please follow the instructions to activate your account!"
  }

  function ResetSent(email: string): string {
    "An email has been sent to " + email
      + ". Please follow the instructions to reset your password. The reset link expires in 10 minutes!"
  }

  /** Some stored user has exactly this email. */
  predicate EmailInUse(users: seq<User>, email: string) {
    exists i :: 0 <= i < |users| && users[i].email == email
  }

  /** The profile URL a new account gets. */
  function ProfileUrl(prims: Prims, username: string): string {
    prims.clientUrl + "/profile/" + username
  }

  function SessionToken(prims: Prims, u: User): string {
    prims.sign(IdClaims(Some(u.id)), SessionSecret)
  }

  function ResetToken(prims: Prims, u: User): string {
    prims.sign(IdClaims(Some(u.id)), ResetSecret)
  }

  /** `preSignup`: refuses an email already stored (compared lower-cased) and
      otherwise mails an activation token carrying the signup form. It never
      writes a user. */
  function PreSignup(prims: Prims, users: seq<User>, name: string, email: string,
                     password: Option<string>, mailAccepted: bool): (out: AuthStep<()>)
    ensures out.users == users
    ensures EmailInUse(users, Lower(email)) ==> out.reply == Text(400, ErrorKey, EmailTaken) && out.mail.None?
    ensures !EmailInUse(users, Lower(email)) ==>
              out.mail == Some(Mail(email, prims.sign(SignupClaims(name, email, password), ActivationSecret)))
    ensures out.reply == Text(201, MessageKey, ActivationSent(email)) <==> !EmailInUse(users, Lower(email)) && mailAccepted
  {
    if FindByEmail(users, Lower(email)).Some? then
      AuthStep(Text(400, ErrorKey, EmailTaken), users, None)
    else
      var token := prims.sign(SignupClaims(name, email, password), ActivationSecret);
      AuthStep(if mailAccepted then Text(201, MessageKey, ActivationSent(email)) else NoReply,
               users, Some(Mail(email, token)))
  }

  /** `signup`: refuses an email already stored as given (not lower-cased),
      otherwise creates the user. A save the schema or a unique index rejects
      throws unhandled: no reply, nothing stored. */
  function Signup(prims: Prims, users: seq<User>, name: string, email: string, password: Option<string>,
                  freshId: Id, freshUsername: string, freshSalt: string): (out: AuthStep<()>)
    ensures out.mail.None?
    ensures EmailInUse(users, email) ==> out.reply == Text(400, MessageKey, UserExists) && out.users == users
    ensures out.reply == NoReply ==> out.users == users
    ensures out.reply == Text(201, MessageKey, SignedUp) <==> out.users != users
    ensures !EmailInUse(users, email) ==>
              var saved := InsertUser(users, NewUser(prims, freshId, name, email, ProfileUrl(prims, freshUsername),
                                                     freshUsername, password, freshSalt));
              && (saved.Some? ==> out.reply == Text(201, MessageKey, SignedUp) && out.users == saved.value)
              && (saved.None? ==> out.reply == NoReply && out.users == users)
    ensures out.users != users ==>
              && !EmailInUse(users, email)
              && |out.users| == |users| + 1 && out.users[..|users|] == users
              && var u := out.users[|users|];
                 u.id == freshId && u.email == NormalizeKey(email) && u.username == NormalizeKey(freshUsername)
                 && u.role == StandardRole && u.resetPasswordLink == "" && Authenticate(prims, u, password)
    ensures UniqueUsers(users) ==> UniqueUsers(out.users)
  {
    if FindByEmail(users, email).Some? then
      AuthStep(Text(400, MessageKey, UserExists), users, None)
    else
      var u := NewUser(prims, freshId, name, email, ProfileUrl(prims, freshUsername), freshUsername, password, freshSalt);
      match InsertUser(users, u)
      case None => AuthStep(NoReply, users, None)
      case Some(saved) =>
        assert saved[..|users|] == users;
        AuthStep(Text(201, MessageKey, SignedUp), saved, None)
  }

  /** `signin`: an unknown email and a wrong password are both refused with
      400 and no token; on success the session token is issued for that
      user's id and only the summary fields are exposed. */
  function Signin(prims: Prims, users: seq<User>, email: string, password: Option<string>): (r: Reply<Session>)
    ensures !EmailInUse(users, email) ==> r == Text(400, ErrorKey, NoSuchUser)
    ensures FindByEmail(users, email).Some? && !Authenticate(prims, FindByEmail(users, email).value, password) ==>
              r == Text(400, ErrorKey, AuthFailed)
    ensures !r.Json? ==> r == Text(400, ErrorKey, NoSuchUser) || r == Text(400, ErrorKey, AuthFailed)
    ensures r.Json? ==>
              (r.status == 201 &&
               exists i :: 0 <= i < |users| && users[i].email == email && Authenticate(prims, users[i], password)
                           && r.value == Session(SessionToken(prims, users[i]), Summary(users[i])))
    ensures UniqueUsers(users) ==>
              forall i :: 0 <= i < |users| && users[i].email == email ==>
                (r.Json? <==> Authenticate(prims, users[i], password))
  {
    match FindByEmail(users, email)
    case None => Text(400, ErrorKey, NoSuchUser)
    case Some(u) =>
      if !Authenticate(prims, u, password) then Text(400, ErrorKey, AuthFailed)
      else Json(201, Session(SessionToken(prims, u), Summary(u)))
  }

  /** A user who has just signed up signs in with the same (normalised) email
      and password. */
  lemma SignupThenSignin(prims: Prims, users: seq<User>, name: string, email: string, password: Option<string>,
                         freshId: Id, freshUsername: string, freshSalt: string)
    requires email == NormalizeKey(email)
    requires Signup(prims, users, name, email, password, freshId, freshUsername, freshSalt).reply
             == Text(201, MessageKey, SignedUp)
    ensures var after := Signup(prims, users, name, email, password, freshId, freshUsername, freshSalt).users;
            Signin(prims, after, email, password).Json?
  {
    var after := Signup(prims, users, name, email, password, freshId, freshUsername, freshSalt).users;
    var u := after[|users|];
    assert forall i :: 0 <= i < |users| ==> after[i] == users[i] && users[i].email != email;
    assert FindByEmail(after, email) == Some(u) by {
      assert FindFirst(after, (v: User) => v.email == email) == Some(|users|);
    }
  }

  /** `authMiddleware`: a missing or empty `_id` in the verified token, or an
      id no user has, is refused with 400; otherwise exactly that user is
      attached as the profile. An id that does not cast to an ObjectId makes
      `findById` throw inside the async stage: no reply. */
  function AuthMiddleware(users: seq<User>, auth: Claims): (v: Verdict<User>)
    ensures !Truthy(ClaimedId(auth)) ==> v == Reject(400, UserIdUndefined)
    ensures v == Hang <==> Truthy(ClaimedId(auth)) && !CastsToObjectId(ClaimedId(auth).value)
    ensures v.Continue? <==>
              Truthy(ClaimedId(auth)) && CastsToObjectId(ClaimedId(auth).value) && HasId(users, ClaimedId(auth).value)
    ensures v.Continue? ==> v.value in users && Some(v.value.id) == ClaimedId(auth)
    ensures v.Reject? ==> v == Reject(400, UserIdUndefined) || v == Reject(400, UserNotResolved)
  {
    var id := ClaimedId(auth);
    if !Truthy(id) then Reject(400, UserIdUndefined)
    else if !CastsToObjectId(id.value) then Hang
    else match FindById(users, id.value)
      case None => Reject(400, UserNotResolved)
      case Some(u) => Continue(u)
  }

  /** `adminMiddleware`: continues, attaching the profile, only for a stored
      user with role 1; an unknown id is refused with 'User not found!' and any
      other role with 'not an administrator'. There is no guard for a missing
      id: `findById({ _id: undefined })`, like any id that does not cast to an
      ObjectId, throws inside the async stage, and nothing replies. */
  function AdminMiddleware(users: seq<User>, auth: Claims): (v: Verdict<User>)
    ensures v.Continue? ==> v.value in users && Some(v.value.id) == ClaimedId(auth) && v.value.role == AdminRole
    ensures v == Hang <==> ClaimedId(auth).None? || !CastsToObjectId(ClaimedId(auth).value)
    ensures (ClaimedId(auth).Some? && CastsToObjectId(ClaimedId(auth).value) && !HasId(users, ClaimedId(auth).value))
              ==> v == Reject(400, AdminNotFound)
    ensures v.Reject? ==> v == Reject(400, AdminNotFound) || v == Reject(400, NotAdmin)
    ensures UniqueUsers(users) ==>
              forall i :: 0 <= i < |users| && Some(users[i].id) == ClaimedId(auth) && CastsToObjectId(users[i].id) ==>
                (v.Continue? <==> users[i].role == AdminRole)
  {
    var id := ClaimedId(auth);
    if id.None? || !CastsToObjectId(id.value) then Hang
    else match FindById(users, id.value)
    case None => Reject(400, AdminNotFound)
    case Some(u) => if u.role != AdminRole then Reject(400, NotAdmin) else Continue(u)
  }

  /** `canUpdateDeleteBlog`: continues only when the blog at the lower-cased
      slug was posted by the profile's user; the role plays no part. A failed
      lookup (whose handler names an undefined variable), a missing blog or a
      blog without author all throw inside the async stage: no reply. */
  function CanUpdateDeleteBlog(blogs: seq<Blog>, slugParam: string, profile: User, lookupFails: bool): (v: Verdict<()>)
    ensures v.Continue? <==>
              !lookupFails && exists i :: 0 <= i < |blogs| && blogs[i].slug == Lower(slugParam)
                                          && FindBlogBySlug(blogs, Lower(slugParam)) == Some(blogs[i])
                                          && blogs[i].postedBy == Some(profile.id)
    ensures UniqueBlogs(blogs) && !lookupFails ==>
              forall i :: 0 <= i < |blogs| && blogs[i].slug == Lower(slugParam) ==>
                (v.Continue? <==> blogs[i].postedBy == Some(profile.id))
    ensures v.Reject? ==> v == Reject(400, NotAuthorised)
    ensures lookupFails || FindBlogBySlug(blogs, Lower(slugParam)).None? ==> v == Hang
  {
    if lookupFails then Hang
    else match FindBlogBySlug(blogs, Lower(slugParam))
      case None => Hang
      case Some(b) =>
        if b.postedBy.None? then Hang
        else if b.postedBy.value != profile.id then Reject(400, NotAuthorised)
        else Continue(())
  }

  /** Every non-empty stored reset link is the reset token issued for its
      holder's own id. */
  ghost predicate LinksIssuedToHolders(prims: Prims, users: seq<User>) {
    forall i :: 0 <= i < |users| ==>
      users[i].resetPasswordLink == "" || users[i].resetPasswordLink == ResetToken(prims, users[i])
  }

  /** Distinct payloads sign to distinct reset tokens. */
  ghost predicate ResetSigningInjective(prims: Prims) {
    forall c1, c2 :: prims.sign(c1, ResetSecret) == prims.sign(c2, ResetSecret) ==> c1 == c2
  }

  /** `forgotPassword`: an unknown email is refused with 400; otherwise a
      reset token for that user's id is stored as their `resetPasswordLink`
      (nobody else changes) and mailed to them. */
  function ForgotPassword(prims: Prims, users: seq<User>, email: string, mailAccepted: bool): (out: AuthStep<()>)
    ensures !EmailInUse(users, email) ==> out == AuthStep(Text(400, ErrorKey, NoUserWithEmail), users, None)
    ensures EmailInUse(users, email) ==>
              exists k :: 0 <= k < |users| && users[k].email == email
                && out.mail == Some(Mail(email, ResetToken(prims, users[k])))
                && out.users == SetResetLink(users, users[k].id, ResetToken(prims, users[k]))
    ensures out.reply.Text? && out.reply.status == 201 <==> EmailInUse(users, email) && mailAccepted
    ensures out.reply.Text? && out.reply.status == 201 ==> out.reply.text == ResetSent(email)
    ensures UniqueUsers(users) ==> UniqueUsers(out.users)
    ensures UniqueUsers(users) && LinksIssuedToHolders(prims, users) ==> LinksIssuedToHolders(prims, out.users)
  {
    match FindFirst(users, (u: User) => u.email == email)
    case None =>
      assert forall j :: 0 <= j < |users| ==> users[j].email != email;
      AuthStep(Text(400, ErrorKey, NoUserWithEmail), users, None)
    case Some(k) =>
      assert users[k].email == email;
      var out := IssueResetLink(prims, users, k, email, mailAccepted);
      assert EmailInUse(users, email);
      assert out.reply.Text? && out.reply.status == 201 <==> mailAccepted;
      out
  }

  /** The success path of `forgotPassword` for the user at position k. */
  function IssueResetLink(prims: Prims, users: seq<User>, k: nat, email: string, mailAccepted: bool): (out: AuthStep<()>)
    requires k < |users| && users[k].email == email
    ensures out.mail == Some(Mail(email, ResetToken(prims, users[k])))
    ensures out.users == SetResetLink(users, users[k].id, ResetToken(prims, users[k]))
    ensures out.reply == if mailAccepted then Text(201, MessageKey, ResetSent(email)) else NoReply
    ensures UniqueUsers(users) ==> UniqueUsers(out.users)
    ensures UniqueUsers(users) && LinksIssuedToHolders(prims, users) ==> LinksIssuedToHolders(prims, out.users)
  {
    var token := ResetToken(prims, users[k]);
    IssuingKeepsLinksWithHolders(prims, users, k);
    AuthStep(if mailAccepted then Text(201, MessageKey, ResetSent(email)) else NoReply,
             SetResetLink(users, users[k].id, token), Some(Mail(email, token)))
  }

  /** Storing a user's own reset token keeps every link with its holder. */
  lemma IssuingKeepsLinksWithHolders(prims: Prims, users: seq<User>, k: nat)
    requires k < |users|
    ensures UniqueUsers(users) && LinksIssuedToHolders(prims, users) ==>
              LinksIssuedToHolders(prims, SetResetLink(users, users[k].id, ResetToken(prims, users[k])))
  {
    var after := SetResetLink(users, users[k].id, ResetToken(prims, users[k]));
    if UniqueUsers(users) && LinksIssuedToHolders(prims, users) {
      forall i | 0 <= i < |after|
        ensures after[i].resetPasswordLink == "" || after[i].resetPasswordLink == ResetToken(prims, after[i])
      {
        if users[i].id == users[k].id {
          assert after[i] == users[i].(resetPasswordLink := ResetToken(prims, users[k]));
        }
      }
    }
  }

  /** `resetPassword`. An empty link does nothing and sends nothing. A link
      that fails verification gets 401, but the callback's `return` does not
      end the handler: the user holding the link is still looked up and
      reset. Resetting gives the holder a new salt and digest and clears the
      link. When no one holds the link, `_.extend` of the missing user gives
      a plain object whose `save` throws inside the `try`: 400 (unless the
      401 went out first) and no change. */
  function ResetPassword(prims: Prims, users: seq<User>, link: Option<string>, newPassword: Option<string>,
                         freshSalt: string): (out: AuthStep<()>)
    ensures out.mail.None?
    ensures !Truthy(link) ==> out.reply == NoReply && out.users == users
    ensures Truthy(link) && prims.verify(link.value, ResetSecret).None? ==> out.reply == Text(401, ErrorKey, ExpiredLink)
    ensures Truthy(link) && prims.verify(link.value, ResetSecret).Some? &&
            (forall i :: 0 <= i < |users| ==> users[i].resetPasswordLink != link.value) ==>
              out.reply == StoreError(400) && out.users == users
    ensures out.reply == Text(201, MessageKey, PasswordReset) ==> out.users != users
    ensures out.users != users ==>
              Truthy(link) && |out.users| == |users| &&
              exists k :: 0 <= k < |users| && users[k].resetPasswordLink == link.value
                && out.users[k].id == users[k].id
                && out.users[k].resetPasswordLink == ""
                && Authenticate(prims, out.users[k], newPassword)
                && (forall i :: 0 <= i < |users| && users[i].id != users[k].id ==> out.users[i] == users[i])
    ensures UniqueUsers(users) ==> UniqueUsers(out.users)
    ensures UniqueUsers(users) && LinksIssuedToHolders(prims, users) ==> LinksIssuedToHolders(prims, out.users)
  {
    if !Truthy(link) then AuthStep(NoReply, users, None)
    else
      var expired := prims.verify(link.value, ResetSecret).None?;
      match FindByResetLink(users, link.value)
      case None => AuthStep(if expired then Text(401, ErrorKey, ExpiredLink) else StoreError(400), users, None)
      case Some(u) =>
        var reset := SetPassword(prims, u, newPassword, freshSalt).(resetPasswordLink := "");
        match ReplaceUser(users, reset)
        case None => AuthStep(if expired then Text(401, ErrorKey, ExpiredLink) else StoreError(400), users, None)
        case Some(saved) =>
          assert u.resetPasswordLink != "";
          var k :| 0 <= k < |users| && users[k] == u;
          assert saved[k] == reset;
          assert saved != users by { assert saved[k].resetPasswordLink != users[k].resetPasswordLink; }
          AuthStep(if expired then Text(401, ErrorKey, ExpiredLink) else Text(201, MessageKey, PasswordReset),
                   saved, None)
  }

  /** When every stored link is its holder's own token, signing tells ids
      apart and ids are unique, a non-empty link is held by one user at most. */
  lemma {:induction false} OneHolderPerLink(prims: Prims, users: seq<User>, link: string)
    requires UniqueUsers(users) && LinksIssuedToHolders(prims, users) && ResetSigningInjective(prims)
    requires link != ""
    ensures forall i, j :: (0 <= i < |users| && 0 <= j < |users| &&
                            users[i].resetPasswordLink == link && users[j].resetPasswordLink == link) ==> i == j
  {
    forall i, j | 0 <= i < |users| && 0 <= j < |users| &&
                  users[i].resetPasswordLink == link && users[j].resetPasswordLink == link
      ensures i == j
    {
      assert ResetToken(prims, users[i]) == ResetToken(prims, users[j]);
      assert IdClaims(Some(users[i].id)) == IdClaims(Some(users[j].id));
      assert users[i].id == users[j].id;
    }
  }

  /** A reset link works once: after a reset that changed the store, the same
      link matches no user, so presenting it again changes nothing and never
      gets the success reply. */
  lemma {:induction false} ResetLinkIsSingleUse(prims: Prims, users: seq<User>, link: Option<string>,
                                                p1: Option<string>, s1: string, p2: Option<string>, s2: string)
    requires UniqueUsers(users) && LinksIssuedToHolders(prims, users) && ResetSigningInjective(prims)
    ensures var first := ResetPassword(prims, users, link, p1, s1);
            var second := ResetPassword(prims, first.users, link, p2, s2);
            first.users != users ==>
              second.users == first.users && second.reply != Text(201, MessageKey, PasswordReset)
  {
    var first := ResetPassword(prims, users, link, p1, s1);
    if first.users != users {
      var k :| 0 <= k < |users| && users[k].resetPasswordLink == link.value
                && first.users[k].id == users[k].id
                && first.users[k].resetPasswordLink == ""
                && Authenticate(prims, first.users[k], p1)
                && (forall i :: 0 <= i < |users| && users[i].id != users[k].id ==> first.users[i] == users[i]);
      OneHolderPerLink(prims, users, link.value);
      forall i | 0 <= i < |first.users|
        ensures first.users[i].resetPasswordLink != link.value
      {
        if i != k {
          assert users[i].id != users[k].id by {
            if i < k { assert users[i].id != users[k].id; } else { assert users[k].id != users[i].id; }
          }
          assert first.users[i] == users[i];
        }
      }
      assert FindByResetLink(first.users, link.value).None?;
    }
  }

  /** Forgot-password for a stored email stores that user's own reset token
      on that user alone and mails it. */
  lemma ForgotStoresOwnToken(prims: Prims, users: seq<User>, k: nat, mailAccepted: bool)
    requires UniqueUsers(users) && k < |users|
    ensures var forgot := ForgotPassword(prims, users, users[k].email, mailAccepted);
            && forgot.mail == Some(Mail(users[k].email, ResetToken(prims, users[k])))
            && forgot.users == SetResetLink(users, users[k].id, ResetToken(prims, users[k]))
  {
    var email := users[k].email;
    var forgot := ForgotPassword(prims, users, email, mailAccepted);
    assert EmailInUse(users, email);
    var k' :| 0 <= k' < |users| && users[k'].email == email
                && forgot.mail == Some(Mail(email, ResetToken(prims, users[k'])))
                && forgot.users == SetResetLink(users, users[k'].id, ResetToken(prims, users[k']));
    assert users[k'].email == users[k].email;
  }

  /** Reset-password with a verified link held by exactly the user at k,
      whose record is otherwise valid, and a new password that digests to
      something: success, the new password authenticates, the link is
      cleared. */
  lemma {:induction false} ResetByHolder(prims: Prims, users: seq<User>, k: nat, link: string,
                                         newPassword: Option<string>, freshSalt: string)
    requires UniqueUsers(users) && k < |users| && ValidUser(users[k])
    requires link != "" && users[k].resetPasswordLink == link
    requires forall i :: 0 <= i < |users| && users[i].resetPasswordLink == link ==> i == k
    requires prims.verify(link, ResetSecret).Some?
    requires EncryptPassword(prims, Some(freshSalt), newPassword) != ""
    ensures var reset := ResetPassword(prims, users, Some(link), newPassword, freshSalt);
            && reset.reply == Text(201, MessageKey, PasswordReset)
            && |reset.users| == |users|
            && reset.users[k].id == users[k].id
            && reset.users[k].resetPasswordLink == ""
            && Authenticate(prims, reset.users[k], newPassword)
  {
    assert FindByResetLink(users, link) == Some(users[k]) by {
      assert FindFirst(users, (u: User) => u.resetPasswordLink == link) == Some(k);
    }
    var updated := SetPassword(prims, users[k], newPassword, freshSalt).(resetPasswordLink := "");
    assert ValidUser(updated);
    assert !Clashes(users, updated) by {
      forall i | 0 <= i < |users| && users[i].id != updated.id
        ensures users[i].email != updated.email && users[i].username != updated.username
      {
        if i < k { assert users[i].email != users[k].email && users[i].username != users[k].username; }
        else { assert users[k].email != users[i].email && users[k].username != users[i].username; }
      }
    }
    assert HasId(users, updated.id);
    var saved := ReplaceUser(users, updated).value;
    assert saved[k] == updated;
  }

  /** Forgot-password followed by reset-password with the mailed link: the
      reset succeeds, the new password authenticates and the link is
      cleared. */
  lemma {:induction false} ForgotThenReset(prims: Prims, users: seq<User>, k: nat, mailAccepted: bool,
                                           newPassword: Option<string>, freshSalt: string)
    requires UniqueUsers(users) && LinksIssuedToHolders(prims, users) && ResetSigningInjective(prims)
    requires k < |users| && ValidUser(users[k])
    requires ResetToken(prims, users[k]) != ""
    requires prims.verify(ResetToken(prims, users[k]), ResetSecret).Some?
    requires EncryptPassword(prims, Some(freshSalt), newPassword) != ""
    ensures var forgot := ForgotPassword(prims, users, users[k].email, mailAccepted);
            var reset := ResetPassword(prims, forgot.users, Some(ResetToken(prims, users[k])), newPassword, freshSalt);
            && forgot.mail == Some(Mail(users[k].email, ResetToken(prims, users[k])))
            && reset.reply == Text(201, MessageKey, PasswordReset)
            && |reset.users| == |users|
            && reset.users[k].id == users[k].id
            && reset.users[k].resetPasswordLink == ""
            && Authenticate(prims, reset.users[k], newPassword)
  {
    var token := ResetToken(prims, users[k]);
    ForgotStoresOwnToken(prims, users, k, mailAccepted);
    var mid := ForgotPassword(prims, users, users[k].email, mailAccepted).users;
    assert mid[k] == users[k].(resetPasswordLink := token);
    OneHolderPerLink(prims, mid, token);
    ResetByHolder(prims, mid, k, token, newPassword, freshSalt);
  }

  /** The account `googleLogin` creates for a new email: the profile's name
      and email, a generated username with its profile URL, and the token's
      `jti` as password. */
  function GoogleAccount(prims: Prims, g: GoogleProfile, freshId: Id, freshUsername: string, freshSalt: string): User {
    NewUser(prims, freshId, g.name, g.email, ProfileUrl(prims, freshUsername), freshUsername, g.jti, freshSalt)
  }

  /** `googleLogin`. No payload (a failed verification) lands in the outer
      catch: 500. An unverified email sends nothing and changes nothing. A
      stored email signs in without creating anyone; otherwise exactly one
      user is created, with a generated username, its profile URL and the
      token's `jti` as password, and signed in. */
  function GoogleLogin(prims: Prims, users: seq<User>, payload: Option<GoogleProfile>,
                       freshId: Id, freshUsername: string, freshSalt: string): (out: AuthStep<Session>)
    ensures out.mail.None?
    ensures payload.None? ==> out.reply == Text(500, MessageKey, RegistrationFailed) && out.users == users
    ensures payload.Some? && !payload.value.emailVerified ==> out.reply == NoReply && out.users == users
    ensures payload.Some? && EmailInUse(users, payload.value.email) ==> out.users == users
    ensures out.reply.Json? ==>
              out.reply.status == 200 && out.reply.value.user.id in (set i | 0 <= i < |out.users| :: out.users[i].id)
    ensures out.users != users ==>
              && payload.Some? && payload.value.emailVerified && !EmailInUse(users, payload.value.email)
              && |out.users| == |users| + 1 && out.users[..|users|] == users
              && var u := out.users[|users|];
                 u.id == freshId && u.username == NormalizeKey(freshUsername)
                 && u.profile == ProfileUrl(prims, freshUsername) && u.email == NormalizeKey(payload.value.email)
                 && u.role == StandardRole
                 && out.reply == Json(200, Session(SessionToken(prims, u), Summary(u)))
    ensures payload.Some? && payload.value.emailVerified && EmailInUse(users, payload.value.email) ==>
              exists k :: 0 <= k < |users| && users[k].email == payload.value.email
                          && (forall j :: 0 <= j < k ==> users[j].email != payload.value.email)
                          && out.reply == Json(200, Session(SessionToken(prims, users[k]), Summary(users[k])))
    ensures payload.Some? && payload.value.emailVerified && !EmailInUse(users, payload.value.email) ==>
              && (out.users != users <==>
                    InsertUser(users, GoogleAccount(prims, payload.value, freshId, freshUsername, freshSalt)).Some?)
              && (out.users == users ==> out.reply == StoreError(400))
    ensures UniqueUsers(users) ==> UniqueUsers(out.users)
  {
    match payload
    case None => AuthStep(Text(500, MessageKey, RegistrationFailed), users, None)
    case Some(g) =>
      if !g.emailVerified then AuthStep(NoReply, users, None)
      else match FindByEmail(users, g.email)
        case Some(u) => AuthStep(Json(200, Session(SessionToken(prims, u), Summary(u))), users, None)
        case None =>
          var u := GoogleAccount(prims, g, freshId, freshUsername, freshSalt);
          match InsertUser(users, u)
          case None => AuthStep(StoreError(400), users, None)
          case Some(saved) =>
            assert saved[|users|] == u && saved[..|users|] == users;
            AuthStep(Json(200, Session(SessionToken(prims, u), Summary(u))), saved, None)
  }
}

=== FILE: blog_controller.dfy ===
/** controllers/blogController.js: creating and editing posts with their
    derived SEO fields, reading and deleting by slug, and the listings. */
module BlogController {
  import opened Wrappers
  import opened Strings
  import opened Collections
  import opened Platform
  import opened UserModel
  import opened BlogModel
  import opened TermModel
  import StripHtml

  /** The text fields of the create form, each absent when not submitted. */
  datatype BlogForm = BlogForm(title: Option<string>, body: Option<string>,
                               categories: Option<string>, tags: Option<string>)

  /** The update form: any blog field may be submitted; categories and tags
      arrive as comma-separated id lists. */
  datatype BlogFields = BlogFields(
    title: Option<string>,
    body: Option<string>,
    excerpt: Option<string>,
    mtitle: Option<string>,
    mdesc: Option<string>,
    slug: Option<string>,
    postedBy: Option<Id>,
    categories: Option<string>,
    tags: Option<string>)

  /** A handler's reply and the blog collection afterwards. */
  datatype BlogStep<+T> = BlogStep(reply: Reply<T>, blogs: seq<Blog>)

  /** The body of `listAllBlogsCategoriesTags`. */
  datatype Listing = Listing(blogs: seq<Blog>, categories: seq<Term>, tags: seq<Term>, size: nat)

  /** `req.body.blog` of `listRelated`. */
  datatype RelatedQuery = RelatedQuery(id: Id, categories: seq<Id>)

  const TitleRequired := "Title is required!"
  const TooLittleContent := "There is too little content!"
  const CategoryRequired := "At least one category is required!"
  const TagRequired := "At least one tag is required!"
  const PhotoTooLarge := "Image must be less than 1MB in size!"
  const NoBlogByName := "No blog by that name was found!"
  const NoBlogPhoto := "There is no blog by this name!"
  const BlogDeleted := "Blog was deleted successfully!"

  /** The shortest body `create` accepts. */
  const MinContentLength: nat := 200
  /** How much of the body the meta description is taken from. */
  const MetaSourceLength: nat := 160
  const DefaultPageSize: nat := 10
  const DefaultRelatedCount: nat := 3

  // ---------------------------------------------------------------------
  // Derived fields

  /** `mdesc`: the first 160 characters of the body with HTML tags removed. */
  function MetaDescription(body: string): (r: string)
    ensures |r| <= MetaSourceLength && |r| <= |body|
    ensures !StripHtml.ContainsTag(r)
    ensures '<' !in Take(body, MetaSourceLength) ==> r == Take(body, MetaSourceLength)
  {
    var head := Take(body, MetaSourceLength);
    StripHtml.StripHtmlProperties(head);
    if '<' in head then StripHtml.Strip(head)
    else StripHtml.StripKeepsPlainText(head); StripHtml.Strip(head)
  }

  /** `mtitle`: the title as submitted, a separator and the application name. */
  function MetaTitle(prims: Prims, title: string): (r: string)
    ensures |r| == |title| + 3 + |prims.appName|
    ensures r[..|title|] == title && r[|title|..] == " | " + prims.appName
  {
    title + " | " + prims.appName
  }

  /** Categories and tags are stored as the comma-split of the submitted field. */
  function IdList(field: string): (r: seq<Id>)
    ensures |r| >= 1 && Join(r, ',') == field
    ensures forall i :: 0 <= i < |r| ==> ',' !in r[i]
  {
    JoinSplit(field, ',');
    Split(field, ',')
  }

  predicate PhotoTooBig(photo: Option<Photo>) {
    photo.Some? && photo.value.size > MaxPhotoSize
  }

  // ---------------------------------------------------------------------
  // create

  /** The first of `create`'s form checks that fails, in the order the
      handler runs them: title, body, categories, tags. */
  function CreateError(form: BlogForm): (r: Option<string>)
    ensures r.None? <==>
              && Truthy(form.title)
              && form.body.Some? && |form.body.value| >= MinContentLength
              && Truthy(form.categories) && Truthy(form.tags)
    ensures !Truthy(form.title) ==> r == Some(TitleRequired)
    ensures (Truthy(form.title) && (form.body.None? || |form.body.value| < MinContentLength))
              ==> r == Some(TooLittleContent)
    ensures r == Some(CategoryRequired) <==>
              Truthy(form.title) && form.body.Some? && |form.body.value| >= MinContentLength
              && !Truthy(form.categories)
    ensures r == Some(TagRequired) <==>
              Truthy(form.title) && form.body.Some? && |form.body.value| >= MinContentLength
              && Truthy(form.categories) && !Truthy(form.tags)
  {
    if !Truthy(form.title) then Some(TitleRequired)
    else if form.body.None? || |form.body.value| < MinContentLength then Some(TooLittleContent)
    else if !Truthy(form.categories) then Some(CategoryRequired)
    else if !Truthy(form.tags) then Some(TagRequired)
    else None
  }

  /** The document `create` saves, before categories and tags are pushed. */
  function NewBlog(prims: Prims, title: string, body: string, photo: Option<Photo>,
                   authId: Option<Id>, freshId: Id, now: int): (b: Blog)
    ensures b.id == freshId && b.created == now && b.photo == photo && b.postedBy == authId
    ensures b.title == Trim(title) && b.body == body
    ensures b.slug == Slug(prims, title) && b.mtitle == MetaTitle(prims, title)
    ensures b.excerpt == prims.smartTrim(body) && b.mdesc == MetaDescription(body)
    ensures b.categories == [] && b.tags == []
  {
    Blog(freshId, Trim(title), Slug(prims, title), body, prims.smartTrim(body),
         MetaTitle(prims, title), MetaDescription(body), photo, [], [], authId, now)
  }

  /** `create`: checks the form, derives the SEO fields, saves the post and
      then pushes the comma-split category and tag ids onto it in two
      further writes. The reply carries the document as first saved. A push
      whose ids do not cast fails after the save, leaving the post stored
      without those references. */
  function Create(prims: Prims, blogs: seq<Blog>, form: BlogForm, photo: Option<Photo>,
                  authId: Option<Id>, freshId: Id, now: int): (out: BlogStep<Blog>)
    ensures CreateError(form).Some? ==> out == BlogStep(Text(400, ErrorKey, CreateError(form).value), blogs)
    ensures CreateError(form).None? && PhotoTooBig(photo) ==> out == BlogStep(Text(400, ErrorKey, PhotoTooLarge), blogs)
    ensures out.reply.Json? <==>
              && CreateError(form).None? && !PhotoTooBig(photo)
              && InsertBlog(blogs, NewBlog(prims, form.title.value, form.body.value, photo, authId, freshId, now)).Some?
              && AllCastToObjectId(IdList(form.categories.value)) && AllCastToObjectId(IdList(form.tags.value))
    ensures out.reply.Json? ==> out.reply.value == NewBlog(prims, form.title.value, form.body.value, photo, authId, freshId, now)
    ensures out.reply.Json? ==>
              && out.reply.status == 200
              && out.blogs == blogs + [out.reply.value.(categories := IdList(form.categories.value),
                                                        tags := IdList(form.tags.value))]
    ensures out.blogs == blogs || (|out.blogs| == |blogs| + 1 && out.blogs[..|blogs|] == blogs)
    ensures out.blogs != blogs ==>
              var b := out.blogs[|blogs|];
              && b.id == freshId && b.postedBy == authId && b.created == now
              && b.slug == Slug(prims, form.title.value) && b.title == Trim(form.title.value)
              && b.mtitle == MetaTitle(prims, form.title.value) && b.mdesc == MetaDescription(form.body.value)
    ensures UniqueBlogs(blogs) ==> UniqueBlogs(out.blogs)
  {
    match CreateError(form)
    case Some(e) => BlogStep(Text(400, ErrorKey, e), blogs)
    case None =>
      if PhotoTooBig(photo) then BlogStep(Text(400, ErrorKey, PhotoTooLarge), blogs)
      else
        var b := NewBlog(prims, form.title.value, form.body.value, photo, authId, freshId, now);
        match InsertBlog(blogs, b)
        case None => BlogStep(StoreError(400), blogs)
        case Some(saved) =>
          PushedKeepsUnique(blogs, b, IdList(form.categories.value), []);
          PushedKeepsUnique(blogs, b, IdList(form.categories.value), IdList(form.tags.value));
          assert b.(categories := IdList(form.categories.value)) == b.(categories := IdList(form.categories.value), tags := []);
          var cats := IdList(form.categories.value);
          var tags := IdList(form.tags.value);
          if !AllCastToObjectId(cats) then BlogStep(StoreError(400), saved)
          else if !AllCastToObjectId(tags) then BlogStep(StoreError(400), blogs + [b.(categories := cats)])
          else BlogStep(Json(200, b), blogs + [b.(categories := cats, tags := tags)])
  }

  /** Pushing references onto a freshly inserted post keeps the unique
      indexes, since neither its id nor its slug changes. */
  lemma PushedKeepsUnique(blogs: seq<Blog>, b: Blog, cats: seq<Id>, tags: seq<Id>)
    ensures UniqueBlogs(blogs + [b]) ==> UniqueBlogs(blogs + [b.(categories := cats, tags := tags)])
  {
    var s := blogs + [b];
    var t := blogs + [b.(categories := cats, tags := tags)];
    if UniqueBlogs(s) {
      forall i, j | 0 <= i < j < |t|
        ensures t[i].id != t[j].id && t[i].slug != t[j].slug
      {
        assert t[i].id == s[i].id && t[i].slug == s[i].slug;
        assert t[j].id == s[j].id && t[j].slug == s[j].slug;
      }
    }
  }

  /** A post created with any title holds a lower-case slug, a meta
      description free of HTML tags and no longer than 160 characters, and
      category and tag lists that join back to the submitted fields. */
  lemma CreatedPostShape(prims: Prims, blogs: seq<Blog>, form: BlogForm, photo: Option<Photo>,
                         authId: Option<Id>, freshId: Id, now: int)
    requires Create(prims, blogs, form, photo, authId, freshId, now).reply.Json?
    ensures var b := Create(prims, blogs, form, photo, authId, freshId, now).blogs[|blogs|];
            && (forall i :: 0 <= i < |b.slug| ==> !IsUpper(b.slug[i]))
            && !StripHtml.ContainsTag(b.mdesc) && |b.mdesc| <= MetaSourceLength
            && Join(b.categories, ',') == form.categories.value
            && Join(b.tags, ',') == form.tags.value
  {
  }

  // ---------------------------------------------------------------------
  // read, remove, photo

  /** `read`: the post whose slug is the lower-cased parameter, without its
      photo; JSON `null` when there is none. */
  function Read(blogs: seq<Blog>, slugParam: string): (r: Reply<Option<Blog>>)
    ensures r.Json? && r.status == 200
    ensures r.value.None? <==> forall i :: 0 <= i < |blogs| ==> blogs[i].slug != Lower(slugParam)
    ensures r.value.Some? ==>
              exists i :: 0 <= i < |blogs| && blogs[i].slug == Lower(slugParam)
                          && r.value.value == blogs[i].(photo := None)
  {
    match FindFirst(blogs, (b: Blog) => b.slug == Lower(slugParam))
    case None => Json(200, None)
    case Some(i) => Json(200, Some(blogs[i].(photo := None)))
  }

  /** A post just created is what reading its (lower-case) slug returns. */
  lemma CreateThenRead(prims: Prims, blogs: seq<Blog>, form: BlogForm, photo: Option<Photo>,
                       authId: Option<Id>, freshId: Id, now: int)
    requires Create(prims, blogs, form, photo, authId, freshId, now).reply.Json?
    ensures var out := Create(prims, blogs, form, photo, authId, freshId, now);
            var b := out.blogs[|blogs|];
            Read(out.blogs, b.slug) == Json(200, Some(b.(photo := None)))
  {
    var out := Create(prims, blogs, form, photo, authId, freshId, now);
    var b := out.blogs[|blogs|];
    LowerIdempotent(prims.slugify(form.title.value));
    assert Lower(b.slug) == b.slug;
    var saved := NewBlog(prims, form.title.value, form.body.value, photo, authId, freshId, now);
    assert InsertBlog(blogs, saved).Some?;
    assert !SlugTaken(blogs, saved);
    assert forall i :: 0 <= i < |blogs| ==> out.blogs[i].slug != b.slug;
    match FindFirst(out.blogs, (x: Blog) => x.slug == Lower(b.slug))
    case None =>
    case Some(i) =>
  }

  /** The query `{ slug }`. */
  function SlugIs(slug: string): Blog -> bool {
    (b: Blog) => b.slug == slug
  }

  /** `remove`: deletes the first post with the lower-cased slug, if any,
      and reports success either way. */
  function Remove(blogs: seq<Blog>, slugParam: string): (out: BlogStep<()>)
    ensures out.reply == Text(201, MessageKey, BlogDeleted)
    ensures (forall i :: 0 <= i < |blogs| ==> blogs[i].slug != Lower(slugParam)) ==> out.blogs == blogs
    ensures multiset(out.blogs) <= multiset(blogs)
    ensures forall i :: 0 <= i < |blogs| && blogs[i].slug != Lower(slugParam) ==> blogs[i] in out.blogs
  {
    BlogStep(Text(201, MessageKey, BlogDeleted), RemoveFirst(blogs, SlugIs(Lower(slugParam))))
  }

  /** Deleting one post keeps the unique indexes. */
  lemma DeletionKeepsUnique(blogs: seq<Blog>, k: nat)
    requires k < |blogs| && UniqueBlogs(blogs)
    ensures UniqueBlogs(blogs[..k] + blogs[k + 1..])
  {
    var s := blogs[..k] + blogs[k + 1..];
    forall i, j | 0 <= i < j < |s|
      ensures s[i].id != s[j].id && s[i].slug != s[j].slug
    {
      var i' := if i < k then i else i + 1;
      var j' := if j < k then j else j + 1;
      assert s[i] == blogs[i'] && s[j] == blogs[j'];
    }
  }

  /** Under the unique slug index at most one post answers a slug query. */
  lemma UniqueSlugIsAtMostOne(blogs: seq<Blog>, slug: string)
    requires UniqueBlogs(blogs)
    ensures AtMostOne(blogs, SlugIs(slug))
  {
    forall i, j | 0 <= i < j < |blogs| && SlugIs(slug)(blogs[i])
      ensures !SlugIs(slug)(blogs[j])
    {
      assert blogs[i].slug != blogs[j].slug;
    }
  }

  /** Under the unique slug index, removal leaves no post with that slug
      and the index still holds. */
  lemma RemoveDeletesThePost(blogs: seq<Blog>, slugParam: string)
    requires UniqueBlogs(blogs)
    ensures var s := Remove(blogs, slugParam).blogs;
            && UniqueBlogs(s)
            && forall i :: 0 <= i < |s| ==> s[i].slug != Lower(slugParam)
  {
    var p := SlugIs(Lower(slugParam));
    assert Remove(blogs, slugParam).blogs == RemoveFirst(blogs, p);
    UniqueSlugIsAtMostOne(blogs, Lower(slugParam));
    match FindFirst(blogs, p)
    case None =>
    case Some(k) =>
      assert RemoveFirst(blogs, p) == blogs[..k] + blogs[k + 1..];
      DeletionKeepsUnique(blogs, k);
  }

  /** `photo`: the stored image of the post with the lower-cased slug. */
  function BlogPhoto(blogs: seq<Blog>, slugParam: string): (r: Reply<Option<Photo>>)
    ensures r.Text? <==> forall i :: 0 <= i < |blogs| ==> blogs[i].slug != Lower(slugParam)
    ensures r.Text? ==> r == Text(400, MessageKey, NoBlogPhoto)
    ensures r.Json? ==>
              r.status == 200 && exists i :: 0 <= i < |blogs| && blogs[i].slug == Lower(slugParam) && r.value == blogs[i].photo
  {
    match FindBlogBySlug(blogs, Lower(slugParam))
    case None => Text(400, MessageKey, NoBlogPhoto)
    case Some(b) => Json(200, b.photo)
  }

  // ---------------------------------------------------------------------
  // update

  /** The loaded post after the submitted fields are merged over it: each
      submitted field overrides the stored one (the title through its trim
      setter), the slug is put back, a non-empty body recomputes the excerpt
      and the meta description, non-empty category and tag lists replace the
      stored ones, and an accepted photo replaces the stored image. */
  function Edited(prims: Prims, stored: Blog, f: BlogFields, photo: Option<Photo>): (b: Blog)
    ensures b.id == stored.id && b.slug == stored.slug && b.created == stored.created
    ensures f.title.Some? ==> b.title == Trim(f.title.value)
    ensures f.title.None? ==> b.title == stored.title
    ensures Truthy(f.body) ==> b.excerpt == prims.smartTrim(f.body.value) && b.mdesc == MetaDescription(f.body.value)
    ensures Truthy(f.categories) ==> b.categories == IdList(f.categories.value)
    ensures !Truthy(f.categories) ==> b.categories == stored.categories
    ensures Truthy(f.tags) ==> b.tags == IdList(f.tags.value)
    ensures !Truthy(f.tags) ==> b.tags == stored.tags
    ensures photo.Some? ==> b.photo == photo
    ensures photo.None? ==> b.photo == stored.photo
  {
    // The merge may also overwrite the slug; the handler puts the loaded
    // slug back, so the stored one is the only one that survives.
    var title := if f.title.Some? then Trim(f.title.value) else stored.title;
    var body := f.body.GetOr(stored.body);
    var excerpt := if Truthy(f.body) then prims.smartTrim(f.body.value) else f.excerpt.GetOr(stored.excerpt);
    var mdesc := if Truthy(f.body) then MetaDescription(f.body.value) else f.mdesc.GetOr(stored.mdesc);
    var categories := if Truthy(f.categories) then IdList(f.categories.value) else stored.categories;
    var tags := if Truthy(f.tags) then IdList(f.tags.value) else stored.tags;
    var postedBy := if f.postedBy.Some? then f.postedBy else stored.postedBy;
    var image := if photo.Some? then photo else stored.photo;
    Blog(stored.id, title, stored.slug, body, excerpt, f.mtitle.GetOr(stored.mtitle), mdesc, image,
         categories, tags, postedBy, stored.created)
  }

  /** The category and tag lists an update assigns, and a submitted author
      id, all cast to ids. */
  predicate EditCasts(f: BlogFields) {
    && (Truthy(f.categories) ==> AllCastToObjectId(IdList(f.categories.value)))
    && (Truthy(f.tags) ==> AllCastToObjectId(IdList(f.tags.value)))
    && (f.postedBy.Some? ==> CastsToObjectId(f.postedBy.value))
  }

  /** `update`: loads the post by lower-cased slug, merges the form over it
      and saves it; the reply hides the photo. An unknown slug, an oversized
      photo and a rejected save leave the collection as it was. */
  function Update(prims: Prims, blogs: seq<Blog>, slugParam: string, f: BlogFields,
                  photo: Option<Photo>): (out: BlogStep<Blog>)
    ensures (forall i :: 0 <= i < |blogs| ==> blogs[i].slug != Lower(slugParam)) ==>
              out == BlogStep(Text(400, MessageKey, NoBlogByName), blogs)
    ensures (exists i :: 0 <= i < |blogs| && blogs[i].slug == Lower(slugParam)) && PhotoTooBig(photo) ==>
              out == BlogStep(Text(400, ErrorKey, PhotoTooLarge), blogs)
    ensures ((exists i :: 0 <= i < |blogs| && blogs[i].slug == Lower(slugParam)) && !PhotoTooBig(photo) &&
             !EditCasts(f)) ==> out == BlogStep(StoreError(400), blogs)
    ensures var m := FindFirst(blogs, SlugIs(Lower(slugParam)));
            out.reply.Json? <==>
              m.Some? && !PhotoTooBig(photo) && EditCasts(f)
              && ReplaceBlog(blogs, Edited(prims, blogs[m.value], f, photo)).Some?
    ensures !out.reply.Json? ==> out.blogs == blogs
    ensures out.reply.Json? ==>
              && out.reply.status == 200 && out.reply.value.photo.None? && |out.blogs| == |blogs|
              && exists k :: 0 <= k < |blogs| && blogs[k].slug == Lower(slugParam)
                             && out.blogs[k] == Edited(prims, blogs[k], f, photo)
                             && out.reply.value == out.blogs[k].(photo := None)
    ensures UniqueBlogs(blogs) ==> UniqueBlogs(out.blogs)
  {
    match FindFirst(blogs, SlugIs(Lower(slugParam)))
    case None => BlogStep(Text(400, MessageKey, NoBlogByName), blogs)
    case Some(k) =>
      if PhotoTooBig(photo) then BlogStep(Text(400, ErrorKey, PhotoTooLarge), blogs)
      else
        var b := Edited(prims, blogs[k], f, photo);
        if !EditCasts(f) then BlogStep(StoreError(400), blogs)
        else match ReplaceBlog(blogs, b)
          case None => BlogStep(StoreError(400), blogs)
          case Some(saved) => BlogStep(Json(200, b.(photo := None)), saved)
  }

  /** Whatever an update submits, every stored post keeps its id and its
      slug, the collection keeps its size, and under unique ids only the
      edited post changes. */
  lemma UpdateKeepsSlugs(prims: Prims, blogs: seq<Blog>, slugParam: string, f: BlogFields, photo: Option<Photo>)
    requires UniqueBlogs(blogs)
    ensures var out := Update(prims, blogs, slugParam, f, photo);
            && |out.blogs| == |blogs|
            && (forall i :: 0 <= i < |blogs| ==> out.blogs[i].id == blogs[i].id && out.blogs[i].slug == blogs[i].slug)
            && (forall i :: 0 <= i < |blogs| && blogs[i].slug != Lower(slugParam) ==> out.blogs[i] == blogs[i])
  {
    var out := Update(prims, blogs, slugParam, f, photo);
    match FindFirst(blogs, SlugIs(Lower(slugParam)))
    case None =>
    case Some(k) =>
      var b := Edited(prims, blogs[k], f, photo);
      if !PhotoTooBig(photo) && EditCasts(f) && ReplaceBlog(blogs, b).Some? {
        var saved := ReplaceBlog(blogs, b).value;
        assert out == BlogStep(Json(200, b.(photo := None)), saved);
        forall i | 0 <= i < |blogs|
          ensures saved[i].id == blogs[i].id && saved[i].slug == blogs[i].slug
          ensures blogs[i].slug != Lower(slugParam) ==> saved[i] == blogs[i]
        {
          if blogs[i].id == b.id {
            assert blogs[i].id == blogs[k].id;
          }
        }
      } else {
        assert out.blogs == blogs;
      }
  }

  /** Submitted category and tag lists replace the stored ones rather than
      being appended to them. */
  lemma UpdateReplacesReferences(prims: Prims, blogs: seq<Blog>, slugParam: string, f: BlogFields,
                                 photo: Option<Photo>)
    requires Update(prims, blogs, slugParam, f, photo).reply.Json?
    ensures var b := Update(prims, blogs, slugParam, f, photo).reply.value;
            && (Truthy(f.categories) ==> Join(b.categories, ',') == f.categories.value)
            && (Truthy(f.tags) ==> Join(b.tags, ',') == f.tags.value)
            && (Truthy(f.body) ==> !StripHtml.ContainsTag(b.mdesc))
  {
  }

  // ---------------------------------------------------------------------
  // Listings

  /** `limit`/`skip` from the request body: a falsy value (absent or 0)
      takes the default. */
  function FieldOr(field: Option<int>, default: nat): (n: int)
    ensures (field.None? || field.value == 0) ==> n == default
    ensures field.Some? && field.value != 0 ==> n == field.value
  {
    if field.Some? && field.value != 0 then field.value else default
  }

  /** The store's `limit(n)`: a negative limit returns at most |n|. */
  function LimitCount(n: int): (r: nat)
    ensures r == n || r == -n
  {
    if n < 0 then -n else n
  }

  function Created(b: Blog): int { b.created }

  /** `listAllBlogsCategoriesTags`: one page of the posts, newest first,
      after skipping `skip` (default 0) and taking at most `limit` (default
      10), with every category and tag and the page size. A negative skip is
      refused by the store and answered with an error body. */
  function ListAllBlogsCategoriesTags(blogs: seq<Blog>, categories: seq<Term>, tags: seq<Term>,
                                      limitField: Option<int>, skipField: Option<int>): (r: Reply<Listing>)
    ensures r.Json? <==> FieldOr(skipField, 0) >= 0
    ensures !r.Json? ==> r == StoreError(200)
    ensures r.Json? ==>
              var skip := FieldOr(skipField, 0);
              var limit := LimitCount(FieldOr(limitField, DefaultPageSize));
              var page := r.value.blogs;
              && r.status == 200
              && r.value.categories == categories && r.value.tags == tags
              && r.value.size == |page|
              && |page| == (if skip >= |blogs| then 0 else if limit <= |blogs| - skip then limit else |blogs| - skip)
              && (skip <= |blogs| ==> skip + |page| <= |blogs| && page == SortDesc(blogs, Created)[skip..skip + |page|])
              && SortedDesc(page, Created)
              && multiset(page) <= multiset(blogs)
  {
    var skip := FieldOr(skipField, 0);
    if skip < 0 then StoreError(200)
    else
      var page := SortedWindow(blogs, Created, skip, LimitCount(FieldOr(limitField, DefaultPageSize)));
      Json(200, Listing(page, categories, tags, |page|))
  }

  /** A listing with a non-negative skip is the sorted window it asks for. */
  lemma ListingIsWindow(blogs: seq<Blog>, categories: seq<Term>, tags: seq<Term>,
                        limitField: Option<int>, skipField: Option<int>)
    requires FieldOr(skipField, 0) >= 0
    ensures var page := SortedWindow(blogs, Created, FieldOr(skipField, 0), LimitCount(FieldOr(limitField, DefaultPageSize)));
            ListAllBlogsCategoriesTags(blogs, categories, tags, limitField, skipField)
              == Json(200, Listing(page, categories, tags, |page|))
  {
  }

  /** The first page holds the newest posts: nothing left off it is newer
      than the last post on it. */
  lemma FirstPageHoldsNewest(blogs: seq<Blog>, categories: seq<Term>, tags: seq<Term>, limitField: Option<int>)
    ensures var r := ListAllBlogsCategoriesTags(blogs, categories, tags, limitField, None);
            && r.Json?
            && var page := r.value.blogs;
               |page| > 0 ==>
                 forall x: Blog :: x in multiset(blogs) - multiset(page) ==> x.created <= page[|page| - 1].created
  {
    var limit := LimitCount(FieldOr(limitField, DefaultPageSize));
    var page := SortedWindow(blogs, Created, 0, limit);
    ListingIsWindow(blogs, categories, tags, limitField, None);
    if |page| > 0 {
      FrontWindowHoldsGreatest(blogs, Created, limit);
      forall x: Blog | x in multiset(blogs) - multiset(page)
        ensures x.created <= page[|page| - 1].created
      {
        assert Created(x) <= Created(page[|page| - 1]);
      }
    }
  }

  /** Paging on: the page of `n` after skipping `n` continues the first page
      of `n`; together they are the first page of `2n`. Both pages are cut
      from the one ordering `SortDesc` fixes, ties in storage order. */
  lemma NextPageContinues(blogs: seq<Blog>, categories: seq<Term>, tags: seq<Term>, n: int)
    requires n > 0
    ensures var first := ListAllBlogsCategoriesTags(blogs, categories, tags, Some(n), None);
            var next := ListAllBlogsCategoriesTags(blogs, categories, tags, Some(n), Some(n));
            var both := ListAllBlogsCategoriesTags(blogs, categories, tags, Some(2 * n), None);
            && first.Json? && next.Json? && both.Json?
            && first.value.blogs + next.value.blogs == both.value.blogs
  {
    ListingIsWindow(blogs, categories, tags, Some(n), None);
    ListingIsWindow(blogs, categories, tags, Some(n), Some(n));
    ListingIsWindow(blogs, categories, tags, Some(2 * n), None);
    FrontWindowsJoin(blogs, Created, n);
  }

  /** None of the posts in the window after skipping `n` is newer than any
      in the front window of `n`. */
  lemma NextWindowIsOlder(blogs: seq<Blog>, n: nat)
    ensures var first := SortedWindow(blogs, Created, 0, n);
            var next := SortedWindow(blogs, Created, n, n);
            forall i, j :: 0 <= i < |first| && 0 <= j < |next| ==> first[i].created >= next[j].created
  {
    var first := SortedWindow(blogs, Created, 0, n);
    var next := SortedWindow(blogs, Created, n, n);
    FrontWindowsJoin(blogs, Created, n);
    SortedSplit(first, next, Created);
    forall i, j | 0 <= i < |first| && 0 <= j < |next|
      ensures first[i].created >= next[j].created
    {
      assert Created(first[i]) >= Created(next[j]);
    }
  }

  /** None of the second page's posts is newer than any on the first page. */
  lemma NextPageIsOlder(blogs: seq<Blog>, categories: seq<Term>, tags: seq<Term>, n: int)
    requires n > 0
    ensures var first := ListAllBlogsCategoriesTags(blogs, categories, tags, Some(n), None);
            var next := ListAllBlogsCategoriesTags(blogs, categories, tags, Some(n), Some(n));
            && first.Json? && next.Json?
            && forall i, j :: 0 <= i < |first.value.blogs| && 0 <= j < |next.value.blogs| ==>
                 first.value.blogs[i].created >= next.value.blogs[j].created
  {
    ListingIsWindow(blogs, categories, tags, Some(n), None);
    ListingIsWindow(blogs, categories, tags, Some(n), Some(n));
    NextWindowIsOlder(blogs, n);
  }

  /** The two pages together draw on the stored posts: no post is on both
      pages unless it is stored twice. Both pages are cut from the one
      ordering `SortDesc` fixes, ties in storage order. */
  lemma PagesDoNotOverlap(blogs: seq<Blog>, categories: seq<Term>, tags: seq<Term>, n: int)
    requires n > 0
    ensures var first := ListAllBlogsCategoriesTags(blogs, categories, tags, Some(n), None);
            var next := ListAllBlogsCategoriesTags(blogs, categories, tags, Some(n), Some(n));
            && first.Json? && next.Json?
            && multiset(first.value.blogs) + multiset(next.value.blogs) <= multiset(blogs)
  {
    ListingIsWindow(blogs, categories, tags, Some(n), None);
    ListingIsWindow(blogs, categories, tags, Some(n), Some(n));
    NextWindowContinues(blogs, Created, n);
  }

  /** With no paging fields the listing is the ten newest posts. */
  lemma DefaultPageIsTen(blogs: seq<Blog>, categories: seq<Term>, tags: seq<Term>)
    ensures var r := ListAllBlogsCategoriesTags(blogs, categories, tags, None, None);
            && r.Json?
            && |r.value.blogs| == (if |blogs| < DefaultPageSize then |blogs| else DefaultPageSize)
            && r.value.size == |r.value.blogs|
  {
    var page := SortedWindow(blogs, Created, 0, DefaultPageSize);
    assert ListAllBlogsCategoriesTags(blogs, categories, tags, None, None)
        == Json(200, Listing(page, categories, tags, |page|));
  }

  /** `listRelated`'s query: another post sharing a category with the given one. */
  predicate Related(q: RelatedQuery, b: Blog) {
    b.id != q.id && exists i, j :: 0 <= i < |b.categories| && 0 <= j < |q.categories| && b.categories[i] == q.categories[j]
  }

  /** `listRelated`: up to `limit` (default 3) other posts sharing a
      category with the given post, in store order. A request without a
      `blog` throws inside the handler and gets no reply. */
  function ListRelated(blogs: seq<Blog>, limitField: Option<int>, query: Option<RelatedQuery>): (r: Reply<seq<Blog>>)
    ensures r.NoReply? <==> query.None?
    ensures r.Json? ==>
              && r.status == 200
              && |r.value| <= LimitCount(FieldOr(limitField, DefaultRelatedCount))
              && (forall i :: 0 <= i < |r.value| ==> r.value[i] in blogs && Related(query.value, r.value[i]))
              && (|r.value| < LimitCount(FieldOr(limitField, DefaultRelatedCount)) ==>
                    forall i :: 0 <= i < |blogs| && Related(query.value, blogs[i]) ==> blogs[i] in r.value)
  {
    match query
    case None => NoReply
    case Some(q) =>
      var all := Filter(blogs, (b: Blog) => Related(q, b));
      var page := Take(all, LimitCount(FieldOr(limitField, DefaultRelatedCount)));
      assert forall i :: 0 <= i < |page| ==> page[i] == all[i];
      Json(200, page)
  }

  /** Related posts never include the post asked about. */
  lemma RelatedExcludesItself(blogs: seq<Blog>, limitField: Option<int>, q: RelatedQuery)
    ensures var r := ListRelated(blogs, limitField, Some(q));
            forall i :: 0 <= i < |r.value| ==> r.value[i].id != q.id
  {
  }

  /** `listByUser`: the posts of the user with that username, in store
      order; an unknown username throws and gets no reply. */
  function ListByUser(users: seq<User>, blogs: seq<Blog>, username: string): (r: Reply<seq<Blog>>)
    ensures r.NoReply? <==> forall i :: 0 <= i < |users| ==> users[i].username != username
    ensures r.Json? ==>
              && r.status == 200
              && exists u :: u in users && u.username == username
                             && (forall i :: 0 <= i < |r.value| ==> r.value[i] in blogs && r.value[i].postedBy == Some(u.id))
                             && (forall i :: 0 <= i < |blogs| && blogs[i].postedBy == Some(u.id) ==> blogs[i] in r.value)
  {
    match FindByUsername(users, username)
    case None => NoReply
    case Some(u) => Json(200, Filter(blogs, (b: Blog) => b.postedBy == Some(u.id)))
  }
}

=== FILE: blog_model.dfy ===
/** The blog record (models/blogModel.js) and what a save accepts. */
module BlogModel {
  import opened Wrappers
  import opened Collections
  import opened Platform

  datatype Blog = Blog(
    id: Id,
    title: string,
    slug: string,
    body: string,
    excerpt: string,
    mtitle: string,
    mdesc: string,
    photo: Option<Photo>,
    categories: seq<Id>,
    tags: seq<Id>,
    postedBy: Option<Id>,
    created: int)

  const MinTitleLength: nat := 3
  const MaxTitleLength: nat := 160
  const MaxExcerptLength: nat := 1000

  /** The schema validators a save runs, on the stored (already trimmed)
      title: title 3 to 160 characters and excerpt at most 1000. `body` is
      declared with the Mixed type `{}`, for which Mongoose registers only
      the `required` (not null) validator; its `minLength` and `maxLength`
      options have no effect. Category and tag entries are references by
      id; `postedBy` is the author's user id. */
  predicate ValidBlog(b: Blog) {
    && MinTitleLength <= |b.title| <= MaxTitleLength
    && |b.excerpt| <= MaxExcerptLength
  }

  /** The title bounds are inclusive: 3 and 160 characters pass, 2 and 161
      fail, whatever else the post holds within its excerpt bound. */
  lemma TitleBoundary(b: Blog)
    requires |b.excerpt| <= MaxExcerptLength
    ensures |b.title| == 3 || |b.title| == 160 ==> ValidBlog(b)
    ensures |b.title| == 2 || |b.title| == 161 ==> !ValidBlog(b)
  {
  }

  /** The unique index on `slug`, and unique ids. */
  ghost predicate UniqueBlogs(blogs: seq<Blog>) {
    forall i, j :: 0 <= i < j < |blogs| ==> blogs[i].id != blogs[j].id && blogs[i].slug != blogs[j].slug
  }

  /** Another stored blog already holds `b`'s slug. */
  predicate SlugTaken(blogs: seq<Blog>, b: Blog) {
    exists i :: 0 <= i < |blogs| && blogs[i].id != b.id && blogs[i].slug == b.slug
  }

  predicate HasBlogId(blogs: seq<Blog>, id: Id) {
    exists i :: 0 <= i < |blogs| && blogs[i].id == id
  }

  /** `save()` of a new blog: appended unless a validator or the unique slug
      rejects it. */
  function InsertBlog(blogs: seq<Blog>, b: Blog): (r: Option<seq<Blog>>)
    ensures r.Some? <==> ValidBlog(b) && !SlugTaken(blogs, b) && !HasBlogId(blogs, b.id)
    ensures r.Some? ==> r.value == blogs + [b]
    ensures r.Some? && UniqueBlogs(blogs) ==> UniqueBlogs(r.value)
  {
    if ValidBlog(b) && !SlugTaken(blogs, b) && !HasBlogId(blogs, b.id) then Some(blogs + [b]) else None
  }

  /** `save()` of a loaded blog: the record with `b`'s id becomes `b`, every
      other record is untouched; rejected by a validator, the unique slug, or
      a vanished record. */
  function ReplaceBlog(blogs: seq<Blog>, b: Blog): (r: Option<seq<Blog>>)
    ensures r.Some? <==> ValidBlog(b) && !SlugTaken(blogs, b) && HasBlogId(blogs, b.id)
    ensures r.Some? ==> |r.value| == |blogs|
    ensures r.Some? ==> forall i :: 0 <= i < |blogs| && blogs[i].id != b.id ==> r.value[i] == blogs[i]
    ensures r.Some? ==> forall i :: 0 <= i < |blogs| && blogs[i].id == b.id ==> r.value[i] == b
    ensures r.Some? && UniqueBlogs(blogs) ==> UniqueBlogs(r.value)
  {
    if ValidBlog(b) && !SlugTaken(blogs, b) && HasBlogId(blogs, b.id) then
      var s := ReplaceWhere(blogs, (x: Blog) => x.id == b.id, b);
      assert UniqueBlogs(blogs) ==> UniqueBlogs(s) by {
        if UniqueBlogs(blogs) {
          forall i, j | 0 <= i < j < |s|
            ensures s[i].id != s[j].id && s[i].slug != s[j].slug
          {
            assert !(blogs[i].id == b.id && blogs[j].id == b.id);
          }
        }
      }
      Some(s)
    else None
  }

  function FindBlogBySlug(blogs: seq<Blog>, slug: string): (r: Option<Blog>)
    ensures r.Some? ==> r.value in blogs && r.value.slug == slug
    ensures r.None? <==> forall i :: 0 <= i < |blogs| ==> blogs[i].slug != slug
  {
    FindOne(blogs, (b: Blog) => b.slug == slug)
  }
}

=== FILE: collections.dfy ===
/** Queries over a collection kept in insertion order, the way the document
    store answers `findOne`, `find`, `skip`, `limit` and `sort`. */
module Collections {
  import opened Wrappers

  /** Position of the first element satisfying `p`. */
  function FindFirst<T>(s: seq<T>, p: T -> bool): (r: Option<nat>)
    ensures r.Some? ==> r.value < |s| && p(s[r.value])
    ensures r.Some? ==> forall j :: 0 <= j < r.value ==> !p(s[j])
    ensures r.None? <==> forall j :: 0 <= j < |s| ==> !p(s[j])
  {
    if |s| == 0 then None
    else if p(s[0]) then Some(0)
    else match FindFirst(s[1..], p)
      case Some(k) => Some(k + 1)
      case None => None
  }

  /** `findOne(query)`: the first element satisfying `p`, or nothing. */
  function FindOne<T>(s: seq<T>, p: T -> bool): (r: Option<T>)
    ensures r.Some? ==> r.value in s && p(r.value)
    ensures r.None? <==> forall i :: 0 <= i < |s| ==> !p(s[i])
  {
    match FindFirst(s, p)
    case Some(k) => Some(s[k])
    case None => None
  }

  /** `find(query)`: every element satisfying `p`, in store order. */
  function Filter<T>(s: seq<T>, p: T -> bool): (r: seq<T>)
    ensures |r| <= |s|
    ensures forall i :: 0 <= i < |r| ==> r[i] in s && p(r[i])
    ensures forall i :: 0 <= i < |s| && p(s[i]) ==> s[i] in r
  {
    if |s| == 0 then []
    else if p(s[0]) then [s[0]] + Filter(s[1..], p)
    else Filter(s[1..], p)
  }

  /** `limit(n)` on a query, `substring(0, n)` on a string: the first n
      elements, or all of them. */
  function Take<T>(s: seq<T>, n: nat): (r: seq<T>)
    ensures |r| == if n <= |s| then n else |s|
    ensures r <= s
  {
    if n <= |s| then s[..n] else s
  }

  /** `skip(n)`. */
  function Drop<T>(s: seq<T>, n: nat): (r: seq<T>)
    ensures |r| == if n <= |s| then |s| - n else 0
    ensures forall i :: 0 <= i < |r| ==> r[i] == s[n + i]
  {
    if n <= |s| then s[n..] else []
  }

  /** Descending order of `key`: the first element has the greatest key. */
  ghost predicate SortedDesc<T>(s: seq<T>, key: T -> int) {
    forall i, j :: 0 <= i < j < |s| ==> key(s[i]) >= key(s[j])
  }

  function InsertDesc<T>(x: T, s: seq<T>, key: T -> int): (r: seq<T>)
    requires SortedDesc(s, key)
    ensures SortedDesc(r, key)
    ensures multiset(r) == multiset(s) + multiset{x}
  {
    if |s| == 0 then [x]
    else if key(x) >= key(s[0]) then [x] + s
    else
      var rest := InsertDesc(x, s[1..], key);
      assert s == [s[0]] + s[1..];
      forall i | 0 <= i < |rest|
        ensures key(rest[i]) <= key(s[0])
      {
        assert rest[i] in multiset(rest);
        if rest[i] != x {
          assert rest[i] in multiset(s[1..]);
          assert rest[i] in s[1..];
        }
      }
      [s[0]] + rest
  }

  /** `sort({ key: -1 })`: a reordering of `s` with the greatest key first.
      Elements with equal keys keep their storage order here; the store
      itself leaves their order unspecified. */
  function SortDesc<T>(s: seq<T>, key: T -> int): (r: seq<T>)
    ensures SortedDesc(r, key)
    ensures multiset(r) == multiset(s)
    ensures |r| == |s|
  {
    if |s| == 0 then []
    else
      assert s == [s[0]] + s[1..];
      InsertDesc(s[0], SortDesc(s[1..], key), key)
  }

  /** `skip(n).limit(m)` over a result ordering: the elements from position
      `n` on, as many as `m` allows and the ordering holds. */
  function Window<T>(o: seq<T>, skip: nat, limit: nat): (w: seq<T>)
    ensures |w| == if skip >= |o| then 0 else if limit <= |o| - skip then limit else |o| - skip
    ensures skip <= |o| ==> skip + |w| <= |o| && w == o[skip..skip + |w|]
  {
    var w := Take(Drop(o, skip), limit);
    assert skip <= |o| ==> w == o[skip..skip + |w|];
    w
  }

  /** Consecutive windows join into one: the window of `n` after `skip`
      followed by the window of `m` after it is the window of `n + m` after
      `skip`. */
  lemma AdjacentWindows<T>(o: seq<T>, skip: nat, n: nat, m: nat)
    ensures Window(o, skip, n) + Window(o, skip + n, m) == Window(o, skip, n + m)
  {
    var w2 := Window(o, skip + n, m);
    if skip + n < |o| {
      assert o[skip..skip + n + |w2|] == o[skip..skip + n] + o[skip + n..skip + n + |w2|];
    }
  }

  /** A window of a descending ordering is descending and draws on it. */
  lemma WindowOfSorted<T>(ordered: seq<T>, key: T -> int, skip: nat, limit: nat)
    requires SortedDesc(ordered, key)
    ensures var w := Window(ordered, skip, limit);
            SortedDesc(w, key) && multiset(w) <= multiset(ordered)
  {
    var w := Window(ordered, skip, limit);
    if skip <= |ordered| {
      assert ordered == ordered[..skip] + w + ordered[skip + |w|..];
      assert multiset(ordered) == multiset(ordered[..skip]) + multiset(w) + multiset(ordered[skip + |w|..]);
    }
  }

  /** Nothing left off a leading window `w` of a descending ordering of `s`
      has a greater key than the window's last element. */
  lemma PrefixHoldsGreatest<T>(s: seq<T>, ordered: seq<T>, key: T -> int, w: seq<T>)
    requires SortedDesc(ordered, key) && multiset(ordered) == multiset(s)
    requires 0 < |w| <= |ordered| && w == ordered[..|w|]
    ensures forall x :: x in multiset(s) - multiset(w) ==> key(x) <= key(w[|w| - 1])
  {
    var n := |w|;
    assert ordered == w + ordered[n..];
    assert multiset(s) - multiset(w) == multiset(ordered[n..]);
    forall x | x in multiset(ordered[n..])
      ensures key(x) <= key(w[n - 1])
    {
      var j :| n <= j < |ordered| && ordered[j] == x;
      assert w[n - 1] == ordered[n - 1];
    }
  }

  /** `sort(key: -1).skip(n).limit(m)`: the window at `n` of `s` ordered by
      descending `key`, itself in that order and drawn from `s`. */
  function SortedWindow<T>(s: seq<T>, key: T -> int, skip: nat, limit: nat): (w: seq<T>)
    ensures |w| == if skip >= |s| then 0 else if limit <= |s| - skip then limit else |s| - skip
    ensures skip <= |s| ==> skip + |w| <= |s| && w == SortDesc(s, key)[skip..skip + |w|]
    ensures SortedDesc(w, key)
    ensures multiset(w) <= multiset(s)
  {
    WindowOfSorted(SortDesc(s, key), key, skip, limit);
    Window(SortDesc(s, key), skip, limit)
  }

  /** A window from the front holds the greatest keys: nothing left off has
      a greater key than its last element. */
  lemma FrontWindowHoldsGreatest<T>(s: seq<T>, key: T -> int, limit: nat)
    ensures var w := SortedWindow(s, key, 0, limit);
            |w| > 0 ==> forall x :: x in multiset(s) - multiset(w) ==> key(x) <= key(w[|w| - 1])
  {
    var ordered := SortDesc(s, key);
    var w := SortedWindow(s, key, 0, limit);
    if |w| > 0 {
      PrefixHoldsGreatest(s, ordered, key, w);
    }
  }

  lemma FrontWindowsJoin<T>(s: seq<T>, key: T -> int, n: nat)
    ensures SortedWindow(s, key, 0, n) + SortedWindow(s, key, n, n) == SortedWindow(s, key, 0, 2 * n)
  {
    var o := SortDesc(s, key);
    assert SortedWindow(s, key, 0, n) == Window(o, 0, n);
    assert SortedWindow(s, key, n, n) == Window(o, n, n);
    assert SortedWindow(s, key, 0, 2 * n) == Window(o, 0, n + n);
    AdjacentWindows(o, 0, n, n);
  }

  /** In a descending sequence split in two, no key of the second part
      exceeds a key of the first. */
  lemma SortedSplit<T>(a: seq<T>, b: seq<T>, key: T -> int)
    requires SortedDesc(a + b, key)
    ensures forall i, j :: 0 <= i < |a| && 0 <= j < |b| ==> key(a[i]) >= key(b[j])
  {
    forall i, j | 0 <= i < |a| && 0 <= j < |b|
      ensures key(a[i]) >= key(b[j])
    {
      assert a[i] == (a + b)[i] && b[j] == (a + b)[|a| + j];
    }
  }

  /** The window of `n` after skipping `n` continues the window of `n` from
      the front: together they are the front window of `2n`, no element is
      in both beyond its count in `s`, and no key in the second exceeds a
      key in the first. */
  lemma NextWindowContinues<T>(s: seq<T>, key: T -> int, n: nat)
    ensures var first := SortedWindow(s, key, 0, n);
            var next := SortedWindow(s, key, n, n);
            && first + next == SortedWindow(s, key, 0, 2 * n)
            && multiset(first) + multiset(next) <= multiset(s)
            && forall i, j :: 0 <= i < |first| && 0 <= j < |next| ==> key(first[i]) >= key(next[j])
  {
    var first := SortedWindow(s, key, 0, n);
    var next := SortedWindow(s, key, n, n);
    FrontWindowsJoin(s, key, n);
    assert multiset(first + next) == multiset(first) + multiset(next);
    SortedSplit(first, next, key);
  }

  /** Every element satisfying `p` replaced by `x`; the others untouched. */
  function ReplaceWhere<T>(s: seq<T>, p: T -> bool, x: T): (r: seq<T>)
    ensures |r| == |s|
    ensures forall i :: 0 <= i < |s| && p(s[i]) ==> r[i] == x
    ensures forall i :: 0 <= i < |s| && !p(s[i]) ==> r[i] == s[i]
  {
    seq(|s|, i requires 0 <= i < |s| => if p(s[i]) then x else s[i])
  }

  /** At most one element satisfies `p` (a unique index on the queried key). */
  ghost predicate AtMostOne<T>(s: seq<T>, p: T -> bool) {
    forall i, j :: 0 <= i < j < |s| && p(s[i]) ==> !p(s[j])
  }

  /** Deleting position k keeps the other elements, in order. */
  lemma RemoveAtKeepsOthers<T>(s: seq<T>, k: nat)
    requires k < |s|
    ensures var r := s[..k] + s[k + 1..];
            && |r| == |s| - 1
            && (forall i :: 0 <= i < |r| ==> r[i] == if i < k then s[i] else s[i + 1])
            && (forall i :: 0 <= i < |s| && i != k ==> s[i] in r)
            && multiset(r) <= multiset(s)
  {
    var r := s[..k] + s[k + 1..];
    assert s == s[..k] + [s[k]] + s[k + 1..];
    forall i | 0 <= i < |s| && i != k
      ensures s[i] in r
    {
      if i < k { assert r[i] == s[i]; } else { assert r[i - 1] == s[i]; }
    }
  }

  /** `findOneAndRemove(query)`: the first element satisfying `p` deleted,
      the others kept in order; nothing changes when none does. */
  function RemoveFirst<T>(s: seq<T>, p: T -> bool): (r: seq<T>)
    ensures (forall i :: 0 <= i < |s| ==> !p(s[i])) ==> r == s
    ensures (exists i :: 0 <= i < |s| && p(s[i])) ==>
              exists k :: 0 <= k < |s| && p(s[k]) && (forall j :: 0 <= j < k ==> !p(s[j]))
                          && r == s[..k] + s[k + 1..]
    ensures multiset(r) <= multiset(s)
    ensures forall i :: 0 <= i < |s| && !p(s[i]) ==> s[i] in r
    ensures AtMostOne(s, p) ==> forall i :: 0 <= i < |r| ==> !p(r[i])
  {
    match FindFirst(s, p)
    case None => s
    case Some(k) =>
      RemoveAtKeepsOthers(s, k);
      s[..k] + s[k + 1..]
  }
}

=== FILE: platform.dfy ===
/** What every controller shares: document ids, the opaque primitives the
    application delegates to libraries (HMAC-SHA1, JSON Web Tokens, slugify,
    smartTrim) and the shape of an HTTP reply. */
module Platform {
  import opened Wrappers
  import opened Strings

  /** A document id (a Mongo ObjectId, in its string form). */
  type Id = string

  predicate IsHexDigit(c: char) {
    ('0' <= c <= '9') || ('a' <= c <= 'f') || ('A' <= c <= 'F')
  }

  /** A string Mongoose casts to an ObjectId: twelve characters taken as raw
      bytes, or twenty-four hexadecimal digits. Any other string fails the
      cast, which fails the write it is part of. */
  predicate CastsToObjectId(s: string) {
    |s| == 12 || (|s| == 24 && forall i :: 0 <= i < |s| ==> IsHexDigit(s[i]))
  }

  /** Every entry of a list of references casts. */
  predicate AllCastToObjectId(ids: seq<string>) {
    forall i :: 0 <= i < |ids| ==> CastsToObjectId(ids[i])
  }

  /** JavaScript truthiness of an optional string: present and non-empty. */
  predicate Truthy(s: Option<string>) {
    s.Some? && s.value != ""
  }

  /** The three token secrets: JWT_ACCOUNT_ACTIVATION, JWT_RESET_PASSWORD and
      JWT_SECRET. */
  datatype Secret = ActivationSecret | ResetSecret | SessionSecret

  /** Token payloads: `{ _id }` for session and reset tokens (the id may be
      absent in a payload nobody here signed), and the provisional signup
      `{ name, email, password }` for activation tokens. */
  datatype Claims =
    | IdClaims(id: Option<Id>)
    | SignupClaims(name: string, email: string, password: Option<string>)

  /** `req.auth._id` of a verified payload. */
  function ClaimedId(c: Claims): Option<Id> {
    match c
    case IdClaims(id) => id
    case SignupClaims(_, _, _) => None
  }

  /** The primitives this application calls but does not define, and its
      configuration. `hmacSha1(salt, text)` is None when hashing throws;
      `verify(token, secret)` is None for a bad signature or an expired token. */
  datatype Prims = Prims(
    hmacSha1: (string, string) -> Option<string>,
    sign: (Claims, Secret) -> string,
    verify: (string, Secret) -> Option<Claims>,
    slugify: string -> string,
    smartTrim: string -> string,
    appName: string,
    clientUrl: string)

  /** The slug of a post title or a term name: `slugify` lower-cased. It
      is as long as `slugify`'s output and holds no upper-case letter. */
  function Slug(prims: Prims, text: string): (r: string)
    ensures |r| == |prims.slugify(text)|
    ensures forall i :: 0 <= i < |r| ==> !IsUpper(r[i])
  {
    Lower(prims.slugify(text))
  }

  /** An uploaded or stored image; its bytes are not modelled. */
  datatype Photo = Photo(size: nat, contentType: string)

  /** Upload size limit shared by blog and profile photos. */
  const MaxPhotoSize: nat := 1000000

  /** Which JSON key carries a textual reply: `{ error }` or `{ message }`. */
  datatype Key = ErrorKey | MessageKey

  /** What a handler sends. `StoreError` is `{ error: errorHandler(err) }`,
      whose text comes from a helper outside this model; `NoReply` is a handler
      that ends, or throws inside an async callback, without responding. */
  datatype Reply<+T> =
    | Json(status: nat, value: T)
    | Text(status: nat, key: Key, text: string)
    | StoreError(status: nat)
    | NoReply

  /** An email handed to the mail service, carrying a token link. */
  datatype Mail = Mail(to: string, token: string)

  /** The outcome of one middleware stage: call `next()` with a result,
      respond with a rejection, or neither (an exception in an async stage). */
  datatype Verdict<+T> =
    | Continue(value: T)
    | Reject(status: nat, text: string)
    | Hang
}

=== FILE: routes.dfy ===
/** The routers (the files under routes/): each endpoint is a chain of middleware stages
    in front of its handler. A stage either passes the request on, possibly
    enriched (validation errors collected, the verified token payload, the
    resolved profile), or ends it with a reply, or (an exception inside an
    async stage) neither. The handler runs only when every stage passed. */
module Routes {
  import opened Wrappers
  import opened Strings
  import opened Platform
  import opened UserModel
  import opened BlogModel
  import opened TermModel
  import Validators
  import AuthController

  datatype Stage =
    | NameCheck(kind: Kind)   // categoryCreateValidator / tagCreateValidator
    | FormCheck               // the validator of an auth form
    | RunValidation           // runValidation
    | RequireSignin           // requireSignin (express-jwt)
    | ResolveProfile          // authMiddleware
    | RequireAdmin            // adminMiddleware
    | RequireAuthor           // canUpdateDeleteBlog

  /** What the stages read from a request: the bearer token, the submitted
      name, the messages an auth-form validator reports (those validators
      are not part of this model), the `:slug` parameter, and whether the
      blog lookup of `canUpdateDeleteBlog` throws. */
  datatype Request = Request(
    bearer: Option<string>,
    name: Option<string>,
    formErrors: seq<string>,
    slugParam: string,
    lookupFails: bool)

  /** The stored collections and the primitives the stages consult. */
  datatype Env = Env(prims: Prims, users: seq<User>, blogs: seq<Blog>)

  /** What earlier stages leave on the request: `validationResult`,
      `req.auth` and `req.profile`. */
  datatype Ctx = Ctx(errors: seq<string>, auth: Option<Claims>, profile: Option<User>)

  /** How a request ends: in its handler, with a reply from a stage, or with
      no reply at all. */
  datatype Outcome =
    | Handler(ctx: Ctx)
    | Rejected(status: nat, text: string)
    | Stalled

  /** The context a request enters its chain with. */
  const Start := Ctx([], None, None)

  /** express-jwt's refusals; its error goes to Express's default handler,
      which answers 401. */
  const Unauthorized: nat := 401
  const NoToken := "No authorization token was found"
  const BadToken := "invalid token"

  /** The payload of the request's bearer token, when it verifies under the
      session secret. */
  function Signed(env: Env, req: Request): (c: Option<Claims>)
    ensures c.Some? ==> req.bearer.Some? && env.prims.verify(req.bearer.value, SessionSecret) == c
    ensures req.bearer.Some? && env.prims.verify(req.bearer.value, SessionSecret).Some? ==> c.Some?
  {
    if req.bearer.None? then None else env.prims.verify(req.bearer.value, SessionSecret)
  }

  /** One stage. Validators only collect; `runValidation` decides. The
      middlewares read `req.auth._id` and, for the ownership check,
      `req.profile._id`: without them, or with an id that does not cast,
      they throw, and nothing replies. */
  function Step(env: Env, req: Request, stage: Stage, ctx: Ctx): (v: Verdict<Ctx>)
    ensures stage.NameCheck? ==> v == Continue(ctx.(errors := ctx.errors + Validators.NameErrors(stage.kind, req.name)))
    ensures stage.FormCheck? ==> v == Continue(ctx.(errors := ctx.errors + req.formErrors))
    ensures stage.RunValidation? ==>
              (v.Continue? <==> ctx.errors == []) && (v.Continue? ==> v.value == ctx)
              && (v.Reject? ==> v.status == Validators.Unprocessable && v.text == ctx.errors[0]) && v != Hang
    ensures stage.RequireSignin? ==>
              (v.Continue? <==> Signed(env, req).Some?) && (v.Continue? ==> v.value == ctx.(auth := Signed(env, req)))
              && (v.Reject? ==> v.status == Unauthorized) && v != Hang
    ensures (stage.ResolveProfile? || stage.RequireAdmin?) && v.Continue? ==>
              && ctx.auth.Some? && v.value.profile.Some? && v.value == ctx.(profile := v.value.profile)
              && v.value.profile.value in env.users && Some(v.value.profile.value.id) == ClaimedId(ctx.auth.value)
    ensures stage.RequireAdmin? && v.Continue? ==> v.value.profile.value.role == AdminRole
    ensures stage.RequireAuthor? && v.Continue? ==>
              && ctx.profile.Some? && v.value == ctx && !req.lookupFails
              && exists i :: 0 <= i < |env.blogs| && env.blogs[i].slug == Lower(req.slugParam)
                             && FindBlogBySlug(env.blogs, Lower(req.slugParam)) == Some(env.blogs[i])
                             && env.blogs[i].postedBy == Some(ctx.profile.value.id)
  {
    match stage
    case NameCheck(kind) => Continue(ctx.(errors := ctx.errors + Validators.NameErrors(kind, req.name)))
    case FormCheck => Continue(ctx.(errors := ctx.errors + req.formErrors))
    case RunValidation =>
      if ctx.errors == [] then Continue(ctx) else Reject(Validators.Unprocessable, ctx.errors[0])
    case RequireSignin =>
      if req.bearer.None? then Reject(Unauthorized, NoToken)
      else if Signed(env, req).None? then Reject(Unauthorized, BadToken)
      else Continue(ctx.(auth := Signed(env, req)))
    case ResolveProfile =>
      if ctx.auth.None? then Hang
      else Attach(AuthController.AuthMiddleware(env.users, ctx.auth.value), ctx)
    case RequireAdmin =>
      if ctx.auth.None? then Hang
      else Attach(AuthController.AdminMiddleware(env.users, ctx.auth.value), ctx)
    case RequireAuthor =>
      if ctx.profile.None? then Hang
      else match AuthController.CanUpdateDeleteBlog(env.blogs, req.slugParam, ctx.profile.value, req.lookupFails)
        case Continue(_) => Continue(ctx)
        case Reject(s, t) => Reject(s, t)
        case Hang => Hang
  }

  /** `req.profile = user; next()`. */
  function Attach(v: Verdict<User>, ctx: Ctx): (w: Verdict<Ctx>)
    ensures w.Continue? <==> v.Continue?
    ensures w.Continue? ==> w.value == ctx.(profile := Some(v.value))
    ensures v.Reject? ==> w == Reject(v.status, v.text)
    ensures v.Hang? ==> w.Hang?
  {
    match v
    case Continue(u) => Continue(ctx.(profile := Some(u)))
    case Reject(s, t) => Reject(s, t)
    case Hang => Hang
  }

  /** A chain run left to right: the first stage that does not pass ends the
      request. */
  function Run(env: Env, req: Request, stages: seq<Stage>, ctx: Ctx): (o: Outcome)
    decreases |stages|
  {
    if stages == [] then Handler(ctx)
    else match Step(env, req, stages[0], ctx)
      case Continue(next) => Run(env, req, stages[1..], next)
      case Reject(s, t) => Rejected(s, t)
      case Hang => Stalled
  }

  /** Running a second chain where the first reached its handler. */
  function Then(env: Env, req: Request, o: Outcome, rest: seq<Stage>): Outcome {
    match o
    case Handler(ctx) => Run(env, req, rest, ctx)
    case _ => o
  }

  /** Chains compose: running `first + rest` is running `first`, then `rest`
      from where it left off. */
  lemma {:induction false} RunAppend(env: Env, req: Request, first: seq<Stage>, rest: seq<Stage>, ctx: Ctx)
    ensures Run(env, req, first + rest, ctx) == Then(env, req, Run(env, req, first, ctx), rest)
    decreases |first|
  {
    if first == [] {
      assert first + rest == rest;
    } else {
      assert (first + rest)[0] == first[0];
      assert (first + rest)[1..] == first[1..] + rest;
      match Step(env, req, first[0], ctx)
      case Continue(next) => RunAppend(env, req, first[1..], rest, next);
      case Reject(_, _) =>
      case Hang =>
    }
  }

  /** The handler is reached exactly when every stage, run on what the
      stages before it left, passes the request on. */
  lemma {:induction false} HandlerIffEveryStagePasses(env: Env, req: Request, stages: seq<Stage>, ctx: Ctx)
    ensures Run(env, req, stages, ctx).Handler? <==>
              forall i :: 0 <= i < |stages| ==>
                Run(env, req, stages[..i], ctx).Handler?
                && Step(env, req, stages[i], Run(env, req, stages[..i], ctx).ctx).Continue?
    decreases |stages|
  {
    if stages != [] {
      assert stages[..0] == [];
      match Step(env, req, stages[0], ctx)
      case Continue(next) =>
        var rest := stages[1..];
        HandlerIffEveryStagePasses(env, req, rest, next);
        forall i | 1 <= i <= |stages|
          ensures Run(env, req, stages[..i], ctx) == Run(env, req, rest[..i - 1], next)
        {
          assert stages[..i][0] == stages[0];
          assert stages[..i][1..] == rest[..i - 1];
        }
        assert (forall i :: 0 <= i < |stages| ==>
                  Run(env, req, stages[..i], ctx).Handler?
                  && Step(env, req, stages[i], Run(env, req, stages[..i], ctx).ctx).Continue?) <==>
               (forall j :: 0 <= j < |rest| ==>
                  Run(env, req, rest[..j], next).Handler?
                  && Step(env, req, rest[j], Run(env, req, rest[..j], next).ctx).Continue?) by {
          forall j | 0 <= j < |rest|
            ensures Run(env, req, stages[..j + 1], ctx) == Run(env, req, rest[..j], next) && stages[j + 1] == rest[j]
          {
          }
        }
      case Reject(_, _) =>
      case Hang =>
    }
  }

  /** A chain that does not reach its handler ends with the reply of the
      first stage that refused, or with no reply when that stage threw. */
  lemma {:induction false} StopIsFirstRefusal(env: Env, req: Request, stages: seq<Stage>, ctx: Ctx)
    ensures !Run(env, req, stages, ctx).Handler? ==>
              exists i :: 0 <= i < |stages| && Run(env, req, stages[..i], ctx).Handler?
                          && match Step(env, req, stages[i], Run(env, req, stages[..i], ctx).ctx)
                             case Reject(s, t) => Run(env, req, stages, ctx) == Rejected(s, t)
                             case Hang => Run(env, req, stages, ctx) == Stalled
                             case Continue(_) => false
    decreases |stages|
  {
    if stages != [] {
      assert stages[..0] == [];
      match Step(env, req, stages[0], ctx)
      case Continue(next) =>
        var rest := stages[1..];
        StopIsFirstRefusal(env, req, rest, next);
        if !Run(env, req, stages, ctx).Handler? {
          var j :| 0 <= j < |rest| && Run(env, req, rest[..j], next).Handler?
                   && match Step(env, req, rest[j], Run(env, req, rest[..j], next).ctx)
                      case Reject(s, t) => Run(env, req, rest, next) == Rejected(s, t)
                      case Hang => Run(env, req, rest, next) == Stalled
                      case Continue(_) => false;
          assert stages[..j + 1][0] == stages[0];
          assert stages[..j + 1][1..] == rest[..j];
          assert Run(env, req, stages[..j + 1], ctx) == Run(env, req, rest[..j], next);
          assert stages[j + 1] == rest[j];
        }
      case Reject(_, _) =>
      case Hang =>
    }
  }

  /** Every endpoint of the auth, user, category, tag and blog routers. */
  datatype Route =
    | PreSignup | Signup | Signin | Signout | ForgotPassword | ResetPassword | GoogleLogin
    | ProfileRead | PublicProfile | ProfileUpdate | ProfilePhoto
    | TermCreate(kind: Kind) | TermList(kind: Kind) | TermRead(kind: Kind) | TermRemove(kind: Kind)
    | AdminBlogCreate | AdminBlogRemove | AdminBlogUpdate
    | BlogList | BlogRead | BlogListAll | BlogPhoto | BlogRelated | BlogSearch
    | UserBlogCreate | BlogsByUser | UserBlogUpdate | UserBlogRemove

  /** The stages each router puts in front of the handler. */
  function Chain(route: Route): seq<Stage> {
    match route
    case PreSignup => [FormCheck, RunValidation]
    case Signin => [FormCheck, RunValidation]
    case ForgotPassword => [FormCheck, RunValidation]
    case ResetPassword => [FormCheck, RunValidation]
    case ProfileRead => [RequireSignin, ResolveProfile]
    case ProfileUpdate => [RequireSignin, ResolveProfile]
    case TermCreate(kind) => [NameCheck(kind), RunValidation, RequireSignin, RequireAdmin]
    case TermRemove(_) => [RequireSignin, RequireAdmin]
    case AdminBlogCreate => [RequireSignin, RequireAdmin]
    case AdminBlogRemove => [RequireSignin, RequireAdmin]
    case AdminBlogUpdate => [RequireSignin, RequireAdmin]
    case UserBlogCreate => [RequireSignin, ResolveProfile]
    case UserBlogUpdate => [RequireSignin, ResolveProfile, RequireAuthor]
    case UserBlogRemove => [RequireSignin, ResolveProfile, RequireAuthor]
    case Signup | Signout | GoogleLogin | PublicProfile | ProfilePhoto | TermList(_) | TermRead(_)
       | BlogList | BlogRead | BlogListAll | BlogPhoto | BlogRelated | BlogSearch | BlogsByUser => []
  }

  /** Only the public endpoints have no stage. */
  lemma ChainPublic(route: Route)
    ensures Chain(route) == [] <==> Unguarded(route)
  {

  }

  /** The administrator guard belongs to exactly the administrator
      endpoints, where it comes last, right after the token check. */
  lemma ChainAdminGuard(route: Route)
    ensures var c := Chain(route);
            && (RequireAdmin in c <==> AdminOnly(route))
            && (AdminOnly(route) ==> |c| >= 2 && c[|c| - 2] == RequireSignin && c[|c| - 1] == RequireAdmin)
  {

  }

  /** What the stage table guarantees about the user guards: the ownership
      guard belongs to exactly the user blog update and delete, the profile
      guard to exactly the profile and user blog endpoints, and every user
      guard directly follows the token check. */
  lemma ChainUserGuards(route: Route)
    ensures var c := Chain(route);
            && (RequireAuthor in c <==> route.UserBlogUpdate? || route.UserBlogRemove?)
            && (ResolveProfile in c <==>
                  route.ProfileRead? || route.ProfileUpdate? || route.UserBlogCreate?
                  || route.UserBlogUpdate? || route.UserBlogRemove?)
            && (forall i :: 0 <= i < |c| && (c[i].RequireAdmin? || c[i].ResolveProfile?) ==>
                  0 < i && c[i - 1] == RequireSignin)
  {

  }

  /** A request to an endpoint, from the start of its chain. */
  function Dispatch(env: Env, req: Request, route: Route): Outcome {
    Run(env, req, Chain(route), Start)
  }

  /** Endpoints for administrators only. */
  predicate AdminOnly(route: Route) {
    route.TermCreate? || route.TermRemove? || route.AdminBlogCreate? || route.AdminBlogRemove? || route.AdminBlogUpdate?
  }

  /** Endpoints anyone may call. */
  predicate Unguarded(route: Route) {
    route.Signup? || route.Signout? || route.GoogleLogin? || route.PublicProfile? || route.ProfilePhoto?
    || route.TermList? || route.TermRead? || route.BlogList? || route.BlogRead? || route.BlogListAll?
    || route.BlogPhoto? || route.BlogRelated? || route.BlogSearch? || route.BlogsByUser?
  }

  /** The guarded chain shared by the administrator endpoints. */
  lemma SigninThenAdmin(env: Env, req: Request, ctx: Ctx)
    ensures var o := Run(env, req, [RequireSignin, RequireAdmin], ctx);
            && (o.Handler? <==> Signed(env, req).Some? && AuthController.AdminMiddleware(env.users, Signed(env, req).value).Continue?)
            && (o.Handler? ==> o.ctx == ctx.(auth := Signed(env, req),
                                             profile := Some(AuthController.AdminMiddleware(env.users, Signed(env, req).value).value)))
  {
    assert [RequireSignin, RequireAdmin][1..] == [RequireAdmin];
    assert [RequireAdmin][1..] == [];
  }

  /** The guarded chain shared by the profile and owner endpoints. */
  lemma SigninThenProfile(env: Env, req: Request, ctx: Ctx)
    ensures var o := Run(env, req, [RequireSignin, ResolveProfile], ctx);
            && (o.Handler? <==> Signed(env, req).Some? && AuthController.AuthMiddleware(env.users, Signed(env, req).value).Continue?)
            && (o.Handler? ==> o.ctx == ctx.(auth := Signed(env, req),
                                             profile := Some(AuthController.AuthMiddleware(env.users, Signed(env, req).value).value)))
  {
    assert [RequireSignin, ResolveProfile][1..] == [ResolveProfile];
    assert [ResolveProfile][1..] == [];
  }

  /** An administrator endpoint reaches its handler exactly when a valid
      session token names a stored user of role 1, and, for category and tag
      creation, the name validated first; that user becomes the profile. */
  lemma AdminRoutesNeedAdmin(env: Env, req: Request, route: Route)
    requires AdminOnly(route)
    ensures var o := Dispatch(env, req, route);
            && (o.Handler? <==>
                  (route.TermCreate? ==> Validators.NameErrors(route.kind, req.name) == [])
                  && Signed(env, req).Some?
                  && AuthController.AdminMiddleware(env.users, Signed(env, req).value).Continue?)
            && (o.Handler? ==>
                  && o.ctx.profile.Some? && o.ctx.profile.value in env.users
                  && o.ctx.profile.value.role == AdminRole
                  && Some(o.ctx.profile.value.id) == ClaimedId(Signed(env, req).value))
  {
    if route.TermCreate? {
      var errs := Validators.NameErrors(route.kind, req.name);
      var chain := Chain(route);
      assert chain == [NameCheck(route.kind), RunValidation] + [RequireSignin, RequireAdmin];
      RunAppend(env, req, [NameCheck(route.kind), RunValidation], [RequireSignin, RequireAdmin], Start);
      assert [NameCheck(route.kind), RunValidation][1..] == [RunValidation];
      assert [RunValidation][1..] == [];
      if errs == [] {
        assert Run(env, req, [NameCheck(route.kind), RunValidation], Start) == Handler(Start);
        SigninThenAdmin(env, req, Start);
      }
    } else {
      SigninThenAdmin(env, req, Start);
    }
  }

  /** Category and tag creation validate before they authenticate: an
      invalid name gets 422 and its first message whatever token comes
      with it. */
  lemma ValidationPrecedesSignin(env: Env, req: Request, kind: Kind)
    requires Validators.NameErrors(kind, req.name) != []
    ensures Dispatch(env, req, TermCreate(kind)) == Rejected(Validators.Unprocessable, Validators.NameErrors(kind, req.name)[0])
  {
    var chain := Chain(TermCreate(kind));
    assert chain[1..] == [RunValidation, RequireSignin, RequireAdmin];
  }

  /** An owner endpoint reaches its handler exactly when a valid session
      token resolves to a stored user and the blog at the lower-cased slug
      was posted by that user. */
  lemma OwnerRoutesNeedAuthor(env: Env, req: Request, route: Route)
    requires route.UserBlogUpdate? || route.UserBlogRemove?
    ensures var o := Dispatch(env, req, route);
            && (o.Handler? <==>
                  && Signed(env, req).Some?
                  && AuthController.AuthMiddleware(env.users, Signed(env, req).value).Continue?
                  && AuthController.CanUpdateDeleteBlog(env.blogs, req.slugParam,
                       AuthController.AuthMiddleware(env.users, Signed(env, req).value).value, req.lookupFails).Continue?)
            && (o.Handler? ==>
                  && o.ctx.profile.Some? && o.ctx.profile.value in env.users
                  && Some(o.ctx.profile.value.id) == ClaimedId(Signed(env, req).value)
                  && exists i :: 0 <= i < |env.blogs| && env.blogs[i].slug == Lower(req.slugParam)
                                 && FindBlogBySlug(env.blogs, Lower(req.slugParam)) == Some(env.blogs[i])
                                 && env.blogs[i].postedBy == Some(o.ctx.profile.value.id))
  {
    assert Chain(route) == [RequireSignin, ResolveProfile] + [RequireAuthor];
    RunAppend(env, req, [RequireSignin, ResolveProfile], [RequireAuthor], Start);
    SigninThenProfile(env, req, Start);
    assert [RequireAuthor][1..] == [];
  }

  /** The ownership check has no administrator bypass: a stored
      administrator who did not post the blog is refused on the owner
      endpoints. */
  lemma AdminIsNotAuthor(env: Env, req: Request, route: Route, k: nat, j: nat)
    requires route.UserBlogUpdate? || route.UserBlogRemove?
    requires UniqueUsers(env.users) && UniqueBlogs(env.blogs)
    requires k < |env.users| && env.users[k].role == AdminRole && CastsToObjectId(env.users[k].id)
    requires Signed(env, req).Some? && ClaimedId(Signed(env, req).value) == Some(env.users[k].id)
    requires j < |env.blogs| && env.blogs[j].slug == Lower(req.slugParam) && !req.lookupFails
    requires env.blogs[j].postedBy.Some? && env.blogs[j].postedBy != Some(env.users[k].id)
    ensures Dispatch(env, req, route) == Rejected(400, AuthController.NotAuthorised)
  {
    assert Chain(route) == [RequireSignin, ResolveProfile] + [RequireAuthor];
    RunAppend(env, req, [RequireSignin, ResolveProfile], [RequireAuthor], Start);
    SigninThenProfile(env, req, Start);
    assert [RequireAuthor][1..] == [];
    var c := Signed(env, req).value;
    assert HasId(env.users, env.users[k].id);
    var u := AuthController.AuthMiddleware(env.users, c).value;
    assert u.id == env.users[k].id;
    assert AuthController.CanUpdateDeleteBlog(env.blogs, req.slugParam, u, false) == Reject(400, AuthController.NotAuthorised);
  }

  /** A signed-in user may create a blog: only a valid token and a stored
      user are asked for, no role and no ownership. */
  lemma UserCreateNeedsSigninOnly(env: Env, req: Request)
    ensures Dispatch(env, req, UserBlogCreate).Handler? <==>
              Signed(env, req).Some? && AuthController.AuthMiddleware(env.users, Signed(env, req).value).Continue?
  {
    assert Chain(UserBlogCreate)[1..] == [ResolveProfile];
    assert [ResolveProfile][1..] == [];
  }

  /** The private profile and its update run on the caller's own record:
      the profile handed to the handler is the stored user the session
      token names. */
  lemma ProfileRoutesActOnCaller(env: Env, req: Request, route: Route)
    requires route.ProfileRead? || route.ProfileUpdate?
    ensures var o := Dispatch(env, req, route);
            && (o.Handler? <==>
                  Signed(env, req).Some? && AuthController.AuthMiddleware(env.users, Signed(env, req).value).Continue?)
            && (o.Handler? ==>
                  && o.ctx.profile == Some(AuthController.AuthMiddleware(env.users, Signed(env, req).value).value)
                  && o.ctx.profile.value in env.users
                  && Some(o.ctx.profile.value.id) == ClaimedId(Signed(env, req).value))
  {
    assert Chain(route) == [RequireSignin, ResolveProfile];
    SigninThenProfile(env, req, Start);
  }

  /** pre-signup, signin, forgot-password and reset-password run their form
      validator and `runValidation` and nothing else: the handler runs
      exactly when the form has no errors, otherwise 422 with the first. */
  lemma AuthFormsValidateFirst(env: Env, req: Request, route: Route)
    requires route.PreSignup? || route.Signin? || route.ForgotPassword? || route.ResetPassword?
    ensures Dispatch(env, req, route) ==
              if req.formErrors == [] then Handler(Start) else Rejected(Validators.Unprocessable, req.formErrors[0])
  {
    assert Chain(route) == [FormCheck, RunValidation];
    assert [FormCheck, RunValidation][1..] == [RunValidation];
    assert [RunValidation][1..] == [];
    assert [] + req.formErrors == req.formErrors;
  }

  /** The public endpoints reach their handler for every request, with
      nothing attached. */
  lemma UnguardedRoutesReachHandler(env: Env, req: Request, route: Route)
    requires Unguarded(route)
    ensures Dispatch(env, req, route) == Handler(Start)
  {
  }
}

=== FILE: strings.dfy ===
/** The JavaScript string operations the controllers rely on: `toLowerCase`,
    `trim` and `split(sep)`, over ASCII text. */
module Strings {

  predicate IsUpper(c: char) {
    'A' <= c <= 'Z'
  }

  function LowerChar(c: char): (d: char)
    ensures !IsUpper(d)
    ensures !IsUpper(c) ==> d == c
  {
    if IsUpper(c) then (c as int + 32) as char else c
  }

  /** `s.toLowerCase()` restricted to ASCII letters. */
  function Lower(s: string): (r: string)
    ensures |r| == |s|
    ensures forall i :: 0 <= i < |r| ==> !IsUpper(r[i])
    ensures forall i :: 0 <= i < |s| && !IsUpper(s[i]) ==> r[i] == s[i]
  {
    if |s| == 0 then "" else [LowerChar(s[0])] + Lower(s[1..])
  }

  /** Lower-casing twice is lower-casing once. */
  lemma LowerIdempotent(s: string)
    ensures Lower(Lower(s)) == Lower(s)
  {
  }

  /** The white-space characters `trim` removes, restricted to ASCII. */
  predicate IsSpace(c: char) {
    c == ' ' || c == '\t' || c == '\n' || c == '\r' || c == '\U{000B}' || c == '\U{000C}'
  }

  function TrimStart(s: string): (r: string)
    ensures |r| <= |s| && r == s[|s| - |r|..]
    ensures r == "" || !IsSpace(r[0])
    ensures forall i :: 0 <= i < |s| - |r| ==> IsSpace(s[i])
  {
    if |s| > 0 && IsSpace(s[0]) then TrimStart(s[1..]) else s
  }

  function TrimEnd(s: string): (r: string)
    ensures |r| <= |s| && r == s[..|r|]
    ensures r == "" || !IsSpace(r[|r| - 1])
    ensures forall i :: |r| <= i < |s| ==> IsSpace(s[i])
  {
    if |s| > 0 && IsSpace(s[|s| - 1]) then TrimEnd(s[..|s| - 1]) else s
  }

  /** `s.trim()`: the longest infix of `s` that neither starts nor ends with
      white space. */
  function Trim(s: string): (r: string)
    ensures |r| <= |s|
    ensures r == "" || (!IsSpace(r[0]) && !IsSpace(r[|r| - 1]))
    ensures (forall i :: 0 <= i < |s| ==> !IsSpace(s[i])) ==> r == s
  {
    TrimEnd(TrimStart(s))
  }

  /** `s.split(sep)` for a one-character separator. */
  function Split(s: string, sep: char): (parts: seq<string>)
    ensures |parts| >= 1
    ensures forall i :: 0 <= i < |parts| ==> sep !in parts[i]
  {
    if |s| == 0 then [""]
    else
      var rest := Split(s[1..], sep);
      if s[0] == sep then [""] + rest
      else [[s[0]] + rest[0]] + rest[1..]
  }

  /** `parts.join(sep)`. */
  function Join(parts: seq<string>, sep: char): string
  {
    if |parts| == 0 then ""
    else if |parts| == 1 then parts[0]
    else parts[0] + [sep] + Join(parts[1..], sep)
  }

  /** Splitting at a separator and joining again restores the text, so the
      pieces are exactly the text between separators. */
  lemma {:induction false} JoinSplit(s: string, sep: char)
    ensures Join(Split(s, sep), sep) == s
    decreases |s|
  {
    if |s| > 0 {
      var rest := Split(s[1..], sep);
      JoinSplit(s[1..], sep);
      if s[0] == sep {
        assert Split(s, sep) == [""] + rest;
        assert s == [sep] + s[1..];
      } else {
        var parts := Split(s, sep);
        assert parts[0] == [s[0]] + rest[0];
        if |rest| == 1 {
          assert Join(parts, sep) == [s[0]] + rest[0];
        } else {
          assert parts[1..] == rest[1..];
          assert Join(parts, sep) == [s[0]] + rest[0] + [sep] + Join(rest[1..], sep);
        }
      }
    }
  }

  /** Splitting text that holds no separator yields the text itself. */
  lemma {:induction false} SplitWithoutSeparator(s: string, sep: char)
    requires sep !in s
    ensures Split(s, sep) == [s]
    decreases |s|
  {
    if |s| > 0 {
      assert s[0] != sep && sep !in s[1..];
      SplitWithoutSeparator(s[1..], sep);
      assert s == [s[0]] + s[1..];
    }
  }
}

=== FILE: strip_html.dfy ===
/** `stripHtml` of controllers/blogController.js: `text.replace(/<[^>]+>/g, '')`.
    Scanning left to right, a '<' opens a tag when the first '>' after it is
    not the very next character; the whole tag is dropped and the scan goes
    on after its '>'. Any other character is kept. */
module StripHtml {
  import opened Wrappers

  /** Position of the first '>' at or after `start`. */
  function FirstGt(s: string, start: nat): (r: Option<nat>)
    ensures r.Some? ==> start <= r.value < |s| && s[r.value] == '>'
    ensures r.Some? ==> forall m :: start <= m < r.value ==> s[m] != '>'
    ensures r.None? ==> forall m :: start <= m < |s| ==> s[m] != '>'
    decreases |s| - start
  {
    if start >= |s| then None
    else if s[start] == '>' then Some(start)
    else FirstGt(s, start + 1)
  }

  /** The position of the '>' closing a tag that starts at s[0], if one does. */
  function TagEnd(s: string): (r: Option<nat>)
    ensures r.Some? ==> 2 <= r.value < |s|
  {
    var close := if |s| > 0 && s[0] == '<' then FirstGt(s, 1) else None;
    if close.Some? && close.value >= 2 then close else None
  }

  function Strip(s: string): (r: string)
    ensures |r| <= |s|
    ensures forall i :: 0 <= i < |r| ==> r[i] in s
    decreases |s|
  {
    if |s| == 0 then ""
    else if TagEnd(s).Some? then Strip(s[TagEnd(s).value + 1..])
    else [s[0]] + Strip(s[1..])
  }

  /** txt[i..k+1] matches `<[^>]+>`: a '<', at least one character other
      than '>', then '>'. */
  ghost predicate TagAt(txt: string, i: nat, k: nat) {
    i + 2 <= k < |txt| && txt[i] == '<' && txt[k] == '>' &&
    forall m :: i < m < k ==> txt[m] != '>'
  }

  ghost predicate ContainsTag(txt: string) {
    exists i: nat, k: nat :: TagAt(txt, i, k)
  }

  /** No '>' anywhere after position i. */
  ghost predicate NoGtAfter(txt: string, i: nat) {
    forall m :: i < m < |txt| ==> txt[m] != '>'
  }

  /** Every '<' is either followed directly by '>' or by no '>' at all. */
  ghost predicate NoTagStart(txt: string) {
    forall i :: 0 <= i < |txt| && txt[i] == '<' ==>
      (i + 1 < |txt| && txt[i + 1] == '>') || NoGtAfter(txt, i)
  }

  lemma NoTagStartMeansNoTag(txt: string)
    requires NoTagStart(txt)
    ensures !ContainsTag(txt)
  {
    forall i: nat, k: nat
      ensures !TagAt(txt, i, k)
    {
      if i + 2 <= k < |txt| && txt[i] == '<' && txt[k] == '>' {
        assert !NoGtAfter(txt, i);
        assert txt[i + 1] == '>';
      }
    }
  }

  /** A kept first character stays first. */
  lemma StripKeepsHead(s: string)
    requires |s| > 0 && s[0] != '<'
    ensures |Strip(s)| > 0 && Strip(s)[0] == s[0]
  {
  }

  /** The output of `Strip` never holds a tag. */
  lemma {:induction false} StripLeavesNoTagStart(s: string)
    ensures NoTagStart(Strip(s))
    decreases |s|
  {
    if |s| > 0 {
      if TagEnd(s).Some? {
        StripLeavesNoTagStart(s[TagEnd(s).value + 1..]);
      } else {
        var rest := Strip(s[1..]);
        StripLeavesNoTagStart(s[1..]);
        var r := [s[0]] + rest;
        assert Strip(s) == r;
        forall i | 0 <= i < |r| && r[i] == '<'
          ensures (i + 1 < |r| && r[i + 1] == '>') || NoGtAfter(r, i)
        {
          if i > 0 {
            assert r[i] == rest[i - 1];
          } else if FirstGt(s, 1).None? {
            forall m | 0 < m < |r|
              ensures r[m] != '>'
            {
              assert r[m] == rest[m - 1];
              assert rest[m - 1] in s[1..];
            }
          } else {
            assert s[1] == '>';
            StripKeepsHead(s[1..]);
          }
        }
      }
    }
  }

  /** Text without a tag is left as it is. */
  lemma {:induction false} StripFixesTagFreeText(txt: string)
    requires NoTagStart(txt)
    ensures Strip(txt) == txt
    decreases |txt|
  {
    if |txt| > 0 {
      if txt[0] == '<' && FirstGt(txt, 1).Some? {
        assert txt[1] == '>';
      }
      assert TagEnd(txt).None?;
      assert NoTagStart(txt[1..]) by {
        forall i | 0 <= i < |txt[1..]| && txt[1..][i] == '<'
          ensures (i + 1 < |txt[1..]| && txt[1..][i + 1] == '>') || NoGtAfter(txt[1..], i)
        {
          assert txt[i + 1] == '<';
          if !(i + 2 < |txt| && txt[i + 2] == '>') {
            forall m | i < m < |txt[1..]|
              ensures txt[1..][m] != '>'
            {
              assert txt[1..][m] == txt[m + 1];
            }
          }
        }
      }
      StripFixesTagFreeText(txt[1..]);
      assert txt == [txt[0]] + txt[1..];
    }
  }

  /** Stripping removes every tag, never lengthens, and a second pass changes
      nothing. */
  lemma StripHtmlProperties(s: string)
    ensures !ContainsTag(Strip(s))
    ensures |Strip(s)| <= |s|
    ensures Strip(Strip(s)) == Strip(s)
  {
    StripLeavesNoTagStart(s);
    NoTagStartMeansNoTag(Strip(s));
    StripFixesTagFreeText(Strip(s));
  }

  /** Text containing no '<' is returned unchanged. */
  lemma StripKeepsPlainText(s: string)
    requires '<' !in s
    ensures Strip(s) == s
  {
    assert NoTagStart(s);
    StripFixesTagFreeText(s);
  }
}

=== FILE: term_controller.dfy ===
/** controllers/categoryController.js and controllers/tagController.js: the
    two controllers are the same code over two collections, so one model
    serves both, told apart by `Kind` where their texts or the blog field
    they read differ. */
module TermController {
  import opened Wrappers
  import opened Strings
  import opened Collections
  import opened Platform
  import opened BlogModel
  import opened TermModel
  import Validators

  /** A handler's reply and the category (or tag) collection afterwards. */
  datatype TermStep<+T> = TermStep(reply: Reply<T>, terms: seq<Term>)

  /** The body of `read`: the term (JSON `null` when there is none) and the
      posts that reference it. */
  datatype TermPosts = TermPosts(term: Option<Term>, blogs: seq<Blog>)

  function NotFound(kind: Kind): string {
    match kind
    case Category => "No category by that name was found!"
    case Tag => "No tag by that name was found!"
  }

  function Removed(name: string): string {
    name + " was successfully removed!"
  }

  /** The post field a term of this kind is referenced from. */
  function References(kind: Kind, b: Blog): seq<Id> {
    match kind
    case Category => b.categories
    case Tag => b.tags
  }

  /** `create`: the slug is the lower-cased slugify of the name as sent; the
      schema trims the stored name. A rejected save (an empty trimmed name,
      one over 50 characters, a slug in use) answers 400 and stores nothing;
      success answers 201 with the record. Without a name `slugify` throws
      and nothing answers. */
  function Create(prims: Prims, terms: seq<Term>, name: Option<string>, freshId: Id): (out: TermStep<Term>)
    ensures !out.reply.Json? ==> out.terms == terms
    ensures name.None? ==> out.reply == NoReply
    ensures name.Some? && !out.reply.Json? ==> out.reply == StoreError(400)
    ensures out.reply.Json? ==>
              && name.Some? && out.reply.status == 201
              && out.reply.value == Term(freshId, Trim(name.value), Slug(prims, name.value))
              && out.terms == terms + [out.reply.value]
              && ValidTerm(out.reply.value)
              && forall i :: 0 <= i < |terms| ==> terms[i].slug != out.reply.value.slug
    ensures UniqueTerms(terms) ==> UniqueTerms(out.terms)
  {
    match name
    case None => TermStep(NoReply, terms)
    case Some(n) =>
      var t := Term(freshId, Trim(n), Slug(prims, n));
      match InsertTerm(terms, t)
      case None => TermStep(StoreError(400), terms)
      case Some(saved) => TermStep(Json(201, t), saved)
  }

  /** A name that passes the validator and is not all spaces is stored when
      neither its slug nor the fresh id is taken; a name of spaces passes the
      validator but the trimmed name fails the schema. */
  lemma ValidatedNameIsStored(prims: Prims, kind: Kind, terms: seq<Term>, name: string, freshId: Id)
    requires Validators.NameErrors(kind, Some(name)) == []
    requires forall i :: 0 <= i < |terms| ==> terms[i].id != freshId && terms[i].slug != Slug(prims, name)
    ensures Create(prims, terms, Some(name), freshId).reply.Json? <==> Trim(name) != ""
  {
    var t := Term(freshId, Trim(name), Slug(prims, name));
    assert !TermClashes(terms, t);
  }

  /** `read`: the term with the lower-cased slug and every post referencing
      it, in store order. For an unknown slug the post query asks for a null
      reference, which no stored post has. */
  function Read(kind: Kind, terms: seq<Term>, blogs: seq<Blog>, slugParam: string): (r: Reply<TermPosts>)
    ensures r.Json? && r.status == 201
    ensures r.value.term.None? <==> forall i :: 0 <= i < |terms| ==> terms[i].slug != Lower(slugParam)
    ensures r.value.term.None? ==> r.value.blogs == []
    ensures r.value.term.Some? ==>
              && r.value.term.value in terms && r.value.term.value.slug == Lower(slugParam)
              && (forall i :: 0 <= i < |r.value.blogs| ==>
                    r.value.blogs[i] in blogs && r.value.term.value.id in References(kind, r.value.blogs[i]))
              && (forall i :: 0 <= i < |blogs| && r.value.term.value.id in References(kind, blogs[i]) ==>
                    blogs[i] in r.value.blogs)
  {
    match FindTermBySlug(terms, Lower(slugParam))
    case None => Json(201, TermPosts(None, []))
    case Some(t) => Json(201, TermPosts(Some(t), Filter(blogs, (b: Blog) => t.id in References(kind, b))))
  }

  /** `remove`: an unknown slug answers 400 and changes nothing; otherwise
      the first term with the slug is deleted and the answer names it. */
  function Remove(kind: Kind, terms: seq<Term>, slugParam: string): (out: TermStep<()>)
    ensures (forall i :: 0 <= i < |terms| ==> terms[i].slug != Lower(slugParam)) <==>
              out == TermStep(Text(400, MessageKey, NotFound(kind)), terms)
    ensures (exists i :: 0 <= i < |terms| && terms[i].slug == Lower(slugParam)) ==>
              out.reply.Text? && out.reply.status == 201
    ensures out.reply.Text? && out.reply.status == 201 ==>
              exists k :: 0 <= k < |terms| && terms[k].slug == Lower(slugParam)
                          && out.reply == Text(201, MessageKey, Removed(terms[k].name))
                          && out.terms == terms[..k] + terms[k + 1..]
    ensures multiset(out.terms) <= multiset(terms)
    ensures forall i :: 0 <= i < |terms| && terms[i].slug != Lower(slugParam) ==> terms[i] in out.terms
  {
    var p := TermSlugIs(Lower(slugParam));
    match FindFirst(terms, p)
    case None => TermStep(Text(400, MessageKey, NotFound(kind)), terms)
    case Some(k) =>
      var rest := RemoveFirst(terms, p);
      assert rest == terms[..k] + terms[k + 1..];
      assert rest != terms by { assert |rest| == |terms| - 1; }
      TermStep(Text(201, MessageKey, Removed(terms[k].name)), rest)
  }

  /** The query `{ slug }`. */
  function TermSlugIs(slug: string): Term -> bool {
    (t: Term) => t.slug == slug
  }

  /** Deleting one term keeps the unique indexes. */
  lemma TermDeletionKeepsUnique(terms: seq<Term>, k: nat)
    requires k < |terms| && UniqueTerms(terms)
    ensures UniqueTerms(terms[..k] + terms[k + 1..])
  {
    var s := terms[..k] + terms[k + 1..];
    forall i, j | 0 <= i < j < |s|
      ensures s[i].id != s[j].id && s[i].slug != s[j].slug
    {
      var i' := if i < k then i else i + 1;
      var j' := if j < k then j else j + 1;
      assert s[i] == terms[i'] && s[j] == terms[j'];
    }
  }

  /** Under the unique slug index at most one term answers a slug query. */
  lemma UniqueSlugIsAtMostOne(terms: seq<Term>, slug: string)
    requires UniqueTerms(terms)
    ensures AtMostOne(terms, TermSlugIs(slug))
  {
    forall i, j | 0 <= i < j < |terms| && TermSlugIs(slug)(terms[i])
      ensures !TermSlugIs(slug)(terms[j])
    {
      assert terms[i].slug != terms[j].slug;
    }
  }

  /** Under the unique slug index, removal deletes exactly the term with
      that slug: none is left and the index still holds. */
  lemma RemoveDeletesTheTerm(kind: Kind, terms: seq<Term>, slugParam: string)
    requires UniqueTerms(terms)
    ensures var s := Remove(kind, terms, slugParam).terms;
            && UniqueTerms(s)
            && forall i :: 0 <= i < |s| ==> s[i].slug != Lower(slugParam)
  {
    var p := TermSlugIs(Lower(slugParam));
    assert Remove(kind, terms, slugParam).terms == RemoveFirst(terms, p);
    UniqueSlugIsAtMostOne(terms, Lower(slugParam));
    match FindFirst(terms, p)
    case None =>
    case Some(k) =>
      assert RemoveFirst(terms, p) == terms[..k] + terms[k + 1..];
      TermDeletionKeepsUnique(terms, k);
  }

  /** `list`: `find({})` returns every stored term, in stored order, with
      status 201. */
  function List(terms: seq<Term>): (r: Reply<seq<Term>>)
    ensures r.Json? && r.status == 201
    ensures |r.value| == |terms| && forall i :: 0 <= i < |terms| ==> r.value[i] == terms[i]
  {
    Json(201, terms)
  }

  /** A term just created is listed, and reading its slug finds it with the
      posts that reference it. */
  lemma CreateThenListAndRead(prims: Prims, kind: Kind, terms: seq<Term>, blogs: seq<Blog>,
                              name: string, freshId: Id)
    requires Create(prims, terms, Some(name), freshId).reply.Json?
    ensures var out := Create(prims, terms, Some(name), freshId);
            var t := out.reply.value;
            && t in List(out.terms).value
            && Read(kind, out.terms, blogs, t.slug).value.term == Some(t)
  {
    var out := Create(prims, terms, Some(name), freshId);
    var t := out.reply.value;
    LowerIdempotent(prims.slugify(name));
    assert Lower(t.slug) == t.slug;
    assert out.terms[|terms|] == t;
    assert FindFirst(out.terms, (x: Term) => x.slug == t.slug) == Some(|terms|);
  }
}

=== FILE: term_model.dfy ===
/** Categories and tags (models/categoryModel.js, models/tagModel.js): two
    collections with the same schema, a trimmed name of at most 50 characters
    and a unique slug. */
module TermModel {
  import opened Wrappers
  import opened Collections
  import opened Platform

  datatype Kind = Category | Tag

  datatype Term = Term(id: Id, name: string, slug: string)

  const MaxTermNameLength: nat := 50

  /** The schema validators on the stored (already trimmed) name: `required`
      and `maxLength` 50. */
  predicate ValidTerm(t: Term) {
    t.name != "" && |t.name| <= MaxTermNameLength
  }

  /** An empty name fails `required`; 50 characters pass and 51 fail
      `maxLength`. */
  lemma NameBoundary(t: Term)
    ensures t.name == "" ==> !ValidTerm(t)
    ensures |t.name| == 50 ==> ValidTerm(t)
    ensures |t.name| == 51 ==> !ValidTerm(t)
  {
  }

  /** The unique index on `slug`, and unique ids. */
  ghost predicate UniqueTerms(terms: seq<Term>) {
    forall i, j :: 0 <= i < j < |terms| ==> terms[i].id != terms[j].id && terms[i].slug != terms[j].slug
  }

  predicate TermClashes(terms: seq<Term>, t: Term) {
    exists i :: 0 <= i < |terms| && (terms[i].id == t.id || terms[i].slug == t.slug)
  }

  /** `save()` of a new category or tag: appended unless a validator, the
      unique slug or a duplicate id rejects it. */
  function InsertTerm(terms: seq<Term>, t: Term): (r: Option<seq<Term>>)
    ensures r.Some? <==> ValidTerm(t) && !TermClashes(terms, t)
    ensures r.Some? ==> r.value == terms + [t]
    ensures r.Some? && UniqueTerms(terms) ==> UniqueTerms(r.value)
  {
    if ValidTerm(t) && !TermClashes(terms, t) then Some(terms + [t]) else None
  }

  function FindTermBySlug(terms: seq<Term>, slug: string): (r: Option<Term>)
    ensures r.Some? ==> r.value in terms && r.value.slug == slug
    ensures r.None? <==> forall i :: 0 <= i < |terms| ==> terms[i].slug != slug
  {
    FindOne(terms, (t: Term) => t.slug == slug)
  }
}

=== FILE: user_controller.dfy ===
/** controllers/userController.js: the private profile, the public profile
    of an author with their posts, profile updates and the profile photo. */
module UserController {
  import opened Wrappers
  import opened Strings
  import opened Collections
  import opened Platform
  import opened UserModel
  import opened BlogModel
  import AuthController

  /** A user as serialised in a reply; a field set to `undefined` before the
      reply is None. */
  datatype UserView = UserView(
    id: Id,
    username: string,
    name: string,
    email: string,
    profile: string,
    hashedPassword: Option<string>,
    salt: Option<string>,
    about: Option<string>,
    role: int,
    photo: Option<Photo>,
    resetPasswordLink: Option<string>)

  /** The body of `publicProfile`. */
  datatype PublicPage = PublicPage(user: UserView, blogs: seq<Blog>)

  /** The profile form: any user field may be submitted. */
  datatype ProfileFields = ProfileFields(
    username: Option<string>,
    name: Option<string>,
    email: Option<string>,
    profile: Option<string>,
    about: Option<string>,
    role: Option<int>,
    password: Option<string>)

  /** A handler's reply and the user collection afterwards. */
  datatype UserStep<+T> = UserStep(reply: Reply<T>, users: seq<User>)

  const UsernameTooLong := "Username should not be longer than 12 characters!"
  const PasswordTooShort := "Password should be at least six characters long!"
  const ProfilePhotoTooLarge := "Image may not be more than 1MB in size!"

  /** The longest username `update` accepts, and the shortest password. */
  const MaxUpdatedUsernameLength: nat := 12
  const MinPasswordLength: nat := 6
  /** How many posts the public profile lists. */
  const PublicBlogCount: nat := 10

  /** Every stored field of `u`, as the document serialises. */
  function View(u: User): (v: UserView)
    ensures v.id == u.id && v.username == u.username && v.email == u.email && v.role == u.role
    ensures v.hashedPassword == Some(u.hashedPassword) && v.salt == u.salt && v.photo == u.photo
    ensures v.resetPasswordLink == Some(u.resetPasswordLink)
  {
    UserView(u.id, u.username, u.name, u.email, u.profile, Some(u.hashedPassword), u.salt, u.about,
             u.role, u.photo, Some(u.resetPasswordLink))
  }

  /** `read`: the caller's own profile with the digest removed. */
  function Read(profile: User): (r: Reply<UserView>)
    ensures r.Json? && r.status == 200
    ensures r.value.hashedPassword.None?
    ensures r.value == View(profile).(hashedPassword := None)
  {
    Json(200, View(profile).(hashedPassword := None))
  }

  /** The posts of the user with id `id`, at most ten, in store order. */
  function AuthorPosts(blogs: seq<Blog>, id: Id): (r: seq<Blog>)
    ensures |r| <= PublicBlogCount
    ensures forall i :: 0 <= i < |r| ==> r[i] in blogs && r[i].postedBy == Some(id)
    ensures |r| < PublicBlogCount ==> forall i :: 0 <= i < |blogs| && blogs[i].postedBy == Some(id) ==> blogs[i] in r
  {
    var all := Filter(blogs, (b: Blog) => b.postedBy == Some(id));
    var page := Take(all, PublicBlogCount);
    assert forall i :: 0 <= i < |page| ==> page[i] == all[i];
    page
  }

  /** `publicProfile` as written: the user with that username and their
      posts, with only the photo and the digest removed, so the salt and
      the pending reset link go out to any visitor. An unknown username
      makes the post query throw inside its `try`: 400. */
  function PublicProfileAsWritten(users: seq<User>, blogs: seq<Blog>, username: string): (r: Reply<PublicPage>)
    ensures r.StoreError? <==> forall i :: 0 <= i < |users| ==> users[i].username != username
    ensures r.StoreError? ==> r.status == 400
    ensures r.Json? ==>
              && r.status == 200
              && exists u :: u in users && u.username == username
                             && r.value.user == View(u).(photo := None, hashedPassword := None)
                             && r.value.blogs == AuthorPosts(blogs, u.id)
  {
    match FindByUsername(users, username)
    case None => StoreError(400)
    case Some(u) => Json(200, PublicPage(View(u).(photo := None, hashedPassword := None), AuthorPosts(blogs, u.id)))
  }

  /** `publicProfile` as evidently intended: the salt and the reset link are
      removed as well, so nothing a credential depends on leaves the server. */
  function PublicProfile(users: seq<User>, blogs: seq<Blog>, username: string): (r: Reply<PublicPage>)
    ensures r.StoreError? <==> forall i :: 0 <= i < |users| ==> users[i].username != username
    ensures r.StoreError? ==> r.status == 400
    ensures r.Json? ==>
              && r.status == 200
              && r.value.user.hashedPassword.None? && r.value.user.salt.None?
              && r.value.user.resetPasswordLink.None? && r.value.user.photo.None?
              && exists u :: u in users && u.username == username
                             && r.value.user.id == u.id && r.value.user.name == u.name
                             && r.value.blogs == AuthorPosts(blogs, u.id)
  {
    match FindByUsername(users, username)
    case None => StoreError(400)
    case Some(u) =>
      var shown := View(u).(photo := None, hashedPassword := None, salt := None, resetPasswordLink := None);
      Json(200, PublicPage(shown, AuthorPosts(blogs, u.id)))
  }

  /** Anyone who knows an author's email and username can take the account
      over through the profile as written: asking for a password reset
      stores the reset token on the author, the public profile then shows
      it, and presenting it to reset-password sets a password of the
      visitor's choosing. */
  lemma PublicProfileLeaksResetLink(prims: Prims, users: seq<User>, blogs: seq<Blog>, k: nat, mailAccepted: bool,
                                    chosen: Option<string>, freshSalt: string)
    requires UniqueUsers(users) && AuthController.LinksIssuedToHolders(prims, users)
    requires AuthController.ResetSigningInjective(prims)
    requires k < |users| && ValidUser(users[k])
    requires AuthController.ResetToken(prims, users[k]) != ""
    requires prims.verify(AuthController.ResetToken(prims, users[k]), ResetSecret).Some?
    requires EncryptPassword(prims, Some(freshSalt), chosen) != ""
    ensures var forgot := AuthController.ForgotPassword(prims, users, users[k].email, mailAccepted);
            var shown := PublicProfileAsWritten(forgot.users, blogs, users[k].username);
            && shown.Json?
            && shown.value.user.resetPasswordLink == Some(AuthController.ResetToken(prims, users[k]))
            && var reset := AuthController.ResetPassword(prims, forgot.users, shown.value.user.resetPasswordLink,
                                                         chosen, freshSalt);
               && reset.reply == Text(201, MessageKey, AuthController.PasswordReset)
               && reset.users[k].id == users[k].id
               && Authenticate(prims, reset.users[k], chosen)
  {
    var token := AuthController.ResetToken(prims, users[k]);
    AuthController.ForgotStoresOwnToken(prims, users, k, mailAccepted);
    var forgot := AuthController.ForgotPassword(prims, users, users[k].email, mailAccepted);
    var mid := forgot.users;
    assert mid[k] == users[k].(resetPasswordLink := token);
    assert FindByUsername(mid, users[k].username) == Some(mid[k]) by {
      forall j | 0 <= j < k
        ensures mid[j].username != users[k].username
      {
        assert mid[j].username == users[j].username;
      }
      assert FindFirst(mid, (v: User) => v.username == users[k].username) == Some(k);
    }
    AuthController.ForgotThenReset(prims, users, k, mailAccepted, chosen, freshSalt);
  }

  /** The first of `update`'s form checks that fails: a username over 12
      characters, then a non-empty password under 6. */
  function UpdateError(f: ProfileFields): (r: Option<string>)
    ensures r.None? <==>
              (!Truthy(f.username) || |f.username.value| <= MaxUpdatedUsernameLength)
              && (!Truthy(f.password) || |f.password.value| >= MinPasswordLength)
    ensures Truthy(f.username) && |f.username.value| > MaxUpdatedUsernameLength ==> r == Some(UsernameTooLong)
    ensures r == Some(PasswordTooShort) <==>
              (!Truthy(f.username) || |f.username.value| <= MaxUpdatedUsernameLength)
              && Truthy(f.password) && |f.password.value| < MinPasswordLength
  {
    if Truthy(f.username) && |f.username.value| > MaxUpdatedUsernameLength then Some(UsernameTooLong)
    else if Truthy(f.password) && |f.password.value| < MinPasswordLength then Some(PasswordTooShort)
    else None
  }

  /** The profile after the submitted fields are copied over it (through the
      setters: trimmed and lower-cased username, trimmed name, the password
      virtual) and the role and email are put back; an accepted photo
      replaces the stored image. */
  function Edited(prims: Prims, u: User, f: ProfileFields, photo: Option<Photo>, freshSalt: string): (r: User)
    ensures r.id == u.id && r.role == u.role && r.email == u.email && r.resetPasswordLink == u.resetPasswordLink
    ensures f.username.Some? ==> r.username == NormalizeKey(f.username.value)
    ensures f.username.None? ==> r.username == u.username
    ensures f.password.Some? ==> r.salt == Some(freshSalt) && Authenticate(prims, r, f.password)
    ensures f.password.None? ==> r.salt == u.salt && r.hashedPassword == u.hashedPassword
    ensures photo.Some? ==> r.photo == photo
  {
    // The copy may overwrite role and email too; the handler restores both.
    var username := if f.username.Some? then NormalizeKey(f.username.value) else u.username;
    var name := if f.name.Some? then Trim(f.name.value) else u.name;
    var profile := f.profile.GetOr(u.profile);
    var about := if f.about.Some? then f.about else u.about;
    var image := if photo.Some? then photo else u.photo;
    var copied := User(u.id, username, name, u.email, profile, u.hashedPassword, u.salt, about, u.role,
                       image, u.resetPasswordLink);
    if f.password.Some? then SetPassword(prims, copied, f.password, freshSalt) else copied
  }

  /** What `update` sends back: the saved profile without digest, salt and
      photo. */
  function UpdatedView(u: User): (v: UserView)
    ensures v.hashedPassword.None? && v.salt.None? && v.photo.None?
    ensures v.id == u.id && v.role == u.role && v.email == u.email && v.username == u.username
  {
    View(u).(hashedPassword := None, salt := None, photo := None)
  }

  /** `update` of the caller's own profile. A refused form or photo and a
      rejected save leave the users as they were; a successful save changes
      the caller's record alone. */
  function Update(prims: Prims, users: seq<User>, profile: User, f: ProfileFields, photo: Option<Photo>,
                  freshSalt: string): (out: UserStep<UserView>)
    ensures UpdateError(f).Some? ==> out == UserStep(Text(400, ErrorKey, UpdateError(f).value), users)
    ensures UpdateError(f).None? && photo.Some? && photo.value.size > MaxPhotoSize ==>
              out == UserStep(Text(400, ErrorKey, ProfilePhotoTooLarge), users)
    ensures !out.reply.Json? ==> out.users == users
    ensures out.reply.Json? <==>
              && UpdateError(f).None? && !(photo.Some? && photo.value.size > MaxPhotoSize)
              && ReplaceUser(users, Edited(prims, profile, f, photo, freshSalt)).Some?
    ensures out.reply.Json? ==>
              && out.reply.status == 200
              && out.reply.value == UpdatedView(Edited(prims, profile, f, photo, freshSalt))
              && |out.users| == |users|
              && (forall i :: 0 <= i < |users| && users[i].id != profile.id ==> out.users[i] == users[i])
              && (forall i :: 0 <= i < |users| && users[i].id == profile.id ==>
                    out.users[i] == Edited(prims, profile, f, photo, freshSalt))
    ensures UniqueUsers(users) ==> UniqueUsers(out.users)
  {
    match UpdateError(f)
    case Some(e) => UserStep(Text(400, ErrorKey, e), users)
    case None =>
      if photo.Some? && photo.value.size > MaxPhotoSize then UserStep(Text(400, ErrorKey, ProfilePhotoTooLarge), users)
      else
        var u := Edited(prims, profile, f, photo, freshSalt);
        match ReplaceUser(users, u)
        case None => UserStep(StoreError(400), users)
        case Some(saved) => UserStep(Json(200, UpdatedView(u)), saved)
  }

  /** Whatever is submitted, no user's role or email changes through
      `update`, and the users other than the caller are untouched. */
  lemma UpdateKeepsRoleAndEmail(prims: Prims, users: seq<User>, k: nat, f: ProfileFields, photo: Option<Photo>,
                                freshSalt: string)
    requires UniqueUsers(users) && k < |users|
    ensures var out := Update(prims, users, users[k], f, photo, freshSalt);
            && |out.users| == |users|
            && forall i :: 0 <= i < |users| ==>
                 out.users[i].role == users[i].role && out.users[i].email == users[i].email
  {
    var out := Update(prims, users, users[k], f, photo, freshSalt);
    if out.reply.Json? {
      forall i | 0 <= i < |users|
        ensures out.users[i].role == users[i].role && out.users[i].email == users[i].email
      {
        if users[i].id == users[k].id {
          assert i == k;
        }
      }
    }
  }

  /** A password changed through `update` is the one that signs in. */
  lemma UpdatedPasswordSignsIn(prims: Prims, users: seq<User>, k: nat, f: ProfileFields, photo: Option<Photo>,
                               freshSalt: string)
    requires k < |users| && f.password.Some?
    requires Update(prims, users, users[k], f, photo, freshSalt).reply.Json?
    ensures var out := Update(prims, users, users[k], f, photo, freshSalt);
            Authenticate(prims, out.users[k], f.password) && out.users[k].salt == Some(freshSalt)
  {
  }

  /** `photo`: the image of the user with that username. An unknown user or
      one without an image gets no reply at all. */
  function UserPhoto(users: seq<User>, username: string): (r: Reply<Photo>)
    ensures r.NoReply? || r.Json?
    ensures r.Json? <==> exists i :: 0 <= i < |users| && users[i].username == username
                                     && FindByUsername(users, username) == Some(users[i]) && users[i].photo.Some?
    ensures r.Json? ==> r.status == 200 && exists u :: u in users && u.username == username && u.photo == Some(r.value)
  {
    match FindByUsername(users, username)
    case None => NoReply
    case Some(u) => if u.photo.Some? then Json(200, u.photo.value) else NoReply
  }
}

=== FILE: user_model.dfy ===
/** The user record (models/userModel.js): schema fields and their setters,
    the `password` virtual that derives salt and digest, `authenticate`, and
    what a save accepts. */
module UserModel {
  import opened Wrappers
  import opened Strings
  import opened Collections
  import opened Platform

  datatype User = User(
    id: Id,
    username: string,
    name: string,
    email: string,
    profile: string,
    hashedPassword: string,
    salt: Option<string>,
    about: Option<string>,
    role: int,
    photo: Option<Photo>,
    resetPasswordLink: string)

  const MaxUsernameLength: nat := 32
  const MaxNameLength: nat := 32

  /** `role` values: 0 is the default, 1 is an administrator. */
  const StandardRole: int := 0
  const AdminRole: int := 1

  /** The `trim` and `lowercase` setters of `username` and `email`. */
  function NormalizeKey(s: string): (r: string)
    ensures |r| <= |s|
    ensures forall i :: 0 <= i < |r| ==> !IsUpper(r[i])
  {
    Lower(Trim(s))
  }

  /** `encryptPassword`: the hex HMAC-SHA1 of the password keyed by the salt;
      '' for an empty or missing password, and '' when hashing throws (an
      unset salt makes it throw). */
  function EncryptPassword(prims: Prims, salt: Option<string>, password: Option<string>): (r: string)
    ensures !Truthy(password) ==> r == ""
    ensures salt.None? ==> r == ""
    ensures r != "" ==> Truthy(password) && salt.Some? && prims.hmacSha1(salt.value, password.value) == Some(r)
    ensures Truthy(password) && salt.Some? && prims.hmacSha1(salt.value, password.value).Some? ==>
              r == prims.hmacSha1(salt.value, password.value).value
  {
    if !Truthy(password) then ""
    else if salt.None? then ""
    else prims.hmacSha1(salt.value, password.value).GetOr("")
  }

  /** `authenticate`: the candidate digests, under the stored salt, to the
      stored digest. A user whose digest is set never accepts an empty or
      missing password. */
  function Authenticate(prims: Prims, u: User, plain: Option<string>): (ok: bool)
    ensures ok <==> EncryptPassword(prims, u.salt, plain) == u.hashedPassword
    ensures u.hashedPassword != "" && !Truthy(plain) ==> !ok
  {
    EncryptPassword(prims, u.salt, plain) == u.hashedPassword
  }

  /** The `password` virtual setter: a fresh salt, then the digest of the
      password under that salt. Nothing else changes, and the same password
      authenticates afterwards. */
  function SetPassword(prims: Prims, u: User, password: Option<string>, freshSalt: string): (r: User)
    ensures r.salt == Some(freshSalt)
    ensures r == u.(salt := r.salt, hashedPassword := r.hashedPassword)
    ensures r.hashedPassword == EncryptPassword(prims, Some(freshSalt), password)
    ensures Authenticate(prims, r, password)
    ensures r.hashedPassword != "" ==> Truthy(password)
  {
    var salted := u.(salt := Some(freshSalt));
    salted.(hashedPassword := EncryptPassword(prims, salted.salt, password))
  }

  /** `new User({ name, email, password, profile, username })`: setters
      applied, `role` 0 and `resetPasswordLink` '' by default, and the
      password virtual run. */
  function NewUser(prims: Prims, id: Id, name: string, email: string, profile: string,
                   username: string, password: Option<string>, freshSalt: string): (u: User)
    ensures u.id == id && u.profile == profile
    ensures u.role == StandardRole && u.resetPasswordLink == ""
    ensures u.about.None? && u.photo.None?
    ensures u.email == NormalizeKey(email) && u.username == NormalizeKey(username) && u.name == Trim(name)
    ensures u.salt == Some(freshSalt) && Authenticate(prims, u, password)
  {
    var blank := User(id, NormalizeKey(username), Trim(name), NormalizeKey(email), profile,
                      "", None, None, StandardRole, None, "");
    SetPassword(prims, blank, password, freshSalt)
  }

  /** The schema validators a save runs: `required` (a string must be
      non-empty) on username, name, email, profile and hashed_password, and
      `maxLength` 32 on username and name. */
  predicate ValidUser(u: User) {
    && u.username != "" && |u.username| <= MaxUsernameLength
    && u.name != "" && |u.name| <= MaxNameLength
    && u.email != ""
    && u.profile != ""
    && u.hashedPassword != ""
  }

  /** The unique indexes on `_id`, `email` and `username`. */
  ghost predicate UniqueUsers(users: seq<User>) {
    forall i, j :: 0 <= i < j < |users| ==>
      users[i].id != users[j].id && users[i].email != users[j].email && users[i].username != users[j].username
  }

  /** Another stored user already holds `u`'s email or username. */
  predicate Clashes(users: seq<User>, u: User) {
    exists i :: 0 <= i < |users| && users[i].id != u.id &&
      (users[i].email == u.email || users[i].username == u.username)
  }

  predicate HasId(users: seq<User>, id: Id) {
    exists i :: 0 <= i < |users| && users[i].id == id
  }

  /** `save()` of a new document: rejected by a failing validator or a
      duplicate key, otherwise appended. */
  function InsertUser(users: seq<User>, u: User): (r: Option<seq<User>>)
    ensures r.Some? <==> ValidUser(u) && !Clashes(users, u) && !HasId(users, u.id)
    ensures r.Some? ==> r.value == users + [u]
    ensures r.Some? && UniqueUsers(users) ==> UniqueUsers(r.value)
  {
    if ValidUser(u) && !Clashes(users, u) && !HasId(users, u.id) then Some(users + [u]) else None
  }

  /** `save()` of a loaded document: rejected by a failing validator, a
      duplicate key or a vanished record; otherwise the record with `u`'s id
      becomes `u` and every other record is untouched. */
  function ReplaceUser(users: seq<User>, u: User): (r: Option<seq<User>>)
    ensures r.Some? <==> ValidUser(u) && !Clashes(users, u) && HasId(users, u.id)
    ensures r.Some? ==> |r.value| == |users|
    ensures r.Some? ==> forall i :: 0 <= i < |users| && users[i].id != u.id ==> r.value[i] == users[i]
    ensures r.Some? ==> forall i :: 0 <= i < |users| && users[i].id == u.id ==> r.value[i] == u
    ensures r.Some? && UniqueUsers(users) ==> UniqueUsers(r.value)
  {
    if ValidUser(u) && !Clashes(users, u) && HasId(users, u.id) then
      var s := ReplaceWhere(users, (x: User) => x.id == u.id, u);
      assert UniqueUsers(users) ==> UniqueUsers(s) by {
        if UniqueUsers(users) {
          forall i, j | 0 <= i < j < |s|
            ensures s[i].id != s[j].id && s[i].email != s[j].email && s[i].username != s[j].username
          {
            assert !(users[i].id == u.id && users[j].id == u.id);
            if users[i].id == u.id {
              assert users[j].id != u.id && !(users[j].email == u.email || users[j].username == u.username);
            } else if users[j].id == u.id {
              assert !(users[i].email == u.email || users[i].username == u.username);
            }
          }
        }
      }
      Some(s)
    else None
  }

  /** `user.updateOne({ resetPasswordLink: link })`: no validators run; only
      the link of the record with that id changes. */
  function SetResetLink(users: seq<User>, id: Id, link: string): (r: seq<User>)
    ensures |r| == |users|
    ensures forall i :: 0 <= i < |users| && users[i].id != id ==> r[i] == users[i]
    ensures forall i :: 0 <= i < |users| && users[i].id == id ==> r[i] == users[i].(resetPasswordLink := link)
    ensures UniqueUsers(users) ==> UniqueUsers(r)
  {
    seq(|users|, i requires 0 <= i < |users| =>
      if users[i].id == id then users[i].(resetPasswordLink := link) else users[i])
  }

  function FindById(users: seq<User>, id: Id): (r: Option<User>)
    ensures r.Some? ==> r.value in users && r.value.id == id
    ensures r.None? ==> !HasId(users, id)
  {
    FindOne(users, (u: User) => u.id == id)
  }

  function FindByEmail(users: seq<User>, email: string): (r: Option<User>)
    ensures r.Some? ==> r.value in users && r.value.email == email
    ensures r.None? <==> forall i :: 0 <= i < |users| ==> users[i].email != email
  {
    FindOne(users, (u: User) => u.email == email)
  }

  function FindByUsername(users: seq<User>, username: string): (r: Option<User>)
    ensures r.Some? ==> r.value in users && r.value.username == username
    ensures r.None? <==> forall i :: 0 <= i < |users| ==> users[i].username != username
  {
    FindOne(users, (u: User) => u.username == username)
  }

  function FindByResetLink(users: seq<User>, link: string): (r: Option<User>)
    ensures r.Some? ==> r.value in users && r.value.resetPasswordLink == link
    ensures r.None? <==> forall i :: 0 <= i < |users| ==> users[i].resetPasswordLink != link
  {
    FindOne(users, (u: User) => u.resetPasswordLink == link)
  }

  /** A stored user that passed validation never authenticates with an empty
      or missing password. */
  lemma SavedUserRejectsEmptyPassword(prims: Prims, u: User)
    requires ValidUser(u)
    ensures !Authenticate(prims, u, None) && !Authenticate(prims, u, Some(""))
  {
  }
}

=== FILE: validators.dfy ===
/** The category and tag name validators (validators/categoryValidators.js,
    validators/tagValidators.js) and `runValidation`
    (validators/indexValidators.js), which turns collected validation errors
    into a 422 reply. */
module Validators {
  import opened Wrappers
  import opened Platform
  import opened TermModel

  const NameRequired := "Name is required"
  const CategoryNameTooLong := "Cannot be more than 50 characters"
  const TagNameTooLong := "Cannot be longer than 50 characters"

  /** The longest name the validators let through. */
  const MaxValidatedNameLength: nat := 50

  /** The status of a request refused by validation. */
  const Unprocessable: nat := 422

  function TooLong(kind: Kind): string {
    match kind
    case Category => CategoryNameTooLong
    case Tag => TagNameTooLong
  }

  /** The validators read a missing field as the empty string. */
  function FieldText(field: Option<string>): (s: string)
    ensures field.None? ==> s == ""
    ensures field.Some? ==> s == field.value
  {
    field.GetOr("")
  }

  /** `check('name').not().isEmpty()` then `.isLength({ max: 50 })`: both
      checks run and each failing one adds its message, in that order. The
      emptiness check does not trim, so a name of spaces passes it. */
  function NameErrors(kind: Kind, name: Option<string>): (errors: seq<string>)
    ensures |errors| <= 1
    ensures errors == [] <==> FieldText(name) != "" && |FieldText(name)| <= MaxValidatedNameLength
    ensures FieldText(name) == "" ==> errors == [NameRequired]
    ensures |FieldText(name)| > MaxValidatedNameLength ==> errors == [TooLong(kind)]
  {
    var text := FieldText(name);
    (if text == "" then [NameRequired] else []) + (if |text| > MaxValidatedNameLength then [TooLong(kind)] else [])
  }

  /** A name of exactly fifty characters passes; one more fails with the
      length message of its kind. */
  lemma LengthBoundary(kind: Kind, name: string)
    requires |name| == MaxValidatedNameLength
    ensures NameErrors(kind, Some(name)) == []
    ensures forall c: char :: NameErrors(kind, Some(name + [c])) == [TooLong(kind)]
  {
    forall c: char
      ensures NameErrors(kind, Some(name + [c])) == [TooLong(kind)]
    {
      assert |name + [c]| == MaxValidatedNameLength + 1;
    }
  }

  /** `runValidation`: with no errors the chain continues; otherwise it stops
      with 422 and the first error's message. */
  function RunValidation(errors: seq<string>): (v: Verdict<()>)
    ensures v.Continue? <==> errors == []
    ensures v != Hang
    ensures v.Reject? ==> v.status == Unprocessable && v.text == errors[0]
  {
    if errors == [] then Continue(()) else Reject(Unprocessable, errors[0])
  }
}

=== FILE: wrappers.dfy ===
/** Optional values, used for JavaScript's `undefined`/`null` and for store
    lookups that may find nothing. */
module Wrappers {

  datatype Option<+T> = None | Some(value: T) {

    /** The value when present, otherwise `default`. */
    function GetOr(default: T): T {
      match this
      case Some(v) => v
      case None => default
    }
  }
}
